=== FILE: README.md ===
# AI Lead Follow-Up Agent — a Dafny model of its decision and write-back core

The agent reads a spreadsheet of sales leads, decides for each lead which
follow-up email is due (day 0, day 1, day 3 or day 7 after the last
contact), has a language model write it (a local Ollama server first and
the hosted OpenRouter service as fallback), mails it, and records the send
in the lead's row. It is configured through environment variables.

This project models, as pure functions over immutable data:

- `Text`: Python's `str.strip()` over the exact `str.isspace()` character
  set, and the lower-casing used by the flag test.
- `Dates`: the proleptic Gregorian day number behind `date` subtraction, and
  `date.isoformat()` with its inverse. Every date the run handles is a
  `Dates.CalendarDate`, a `Date` that exists on the calendar.
- `Config`: loading the settings from an environment map. Required variables
  fail when unset or blank. Optional ones fall back to defaults and are
  stripped. The Ollama host loses one trailing `/`. The fallback URL exists
  only when an API key is configured.
- `Scheduler`: reading the four sent flags from their cells, and the
  first-eligible-wins choice of the due stage.
- `Generation`: folding Ollama's streamed reply into one message, the
  OpenRouter fallback, and the primary-then-fallback chain.
- `Compose`: the subject line, both as the agent builds it and as evidently
  intended, and the HTML body.
- `Run`: the per-row outcome, the cell updates that record a send, the loop
  over all rows, and the sheet those updates leave behind.

The external services are oracle parameters of a `Run.Context`. These are
the date parser, the template renderer, the Ollama exchange, the OpenRouter
exchange and the mailer. Today's date is a parameter too, and so are the
settings. The run reads three settings: the OpenRouter API key, the default
subject and the sender name. A `Run.Context` may hold any `Config.Settings`
value. `Config.LoadSettings` produces settings whose optional values are
stripped, but the run's contracts do not depend on that.

The mailer receives the subject line exactly as the agent builds it
(`Compose.SubjectAsWritten`), with the garbled separator described under
Findings. `Compose.Subject` is the corrected line and stands beside it.

Four behaviours of the code are easy to misread; the model follows the
code:

- Rendering a prompt template is not guarded in `run_bot`. A template that
  raises ends the whole run, not just the lead. This is `TemplateFailed`,
  which halts the loop.
- A header without one of the columns write-back needs raises at
  `col[...]`. The cells already written stay written, and the run ends.
  `Run.WriteBack` emits the earlier updates and halts, and `Run.RunFrom`
  keeps every update of each row it reaches, the halting row's included.
- In `ask_ollama`, a line that parses as JSON but is not an object, or a
  `response` that is not text, raises inside the outer `try`. The whole call
  then yields `None`; the line is not skipped. This is `Generation.Line.Raise`.
- The day thresholds are hard-coded in `main.py`. `FOLLOWUP_DAYS` in
  `config.py` holds the same values but is never consulted.

## Model

| member | source | states |
|---|---|---|
| Text.Strip | main.py:191-197 | the stripped string is no longer than the input and neither starts nor ends with white space |
| Text.StripIsSlice | main.py:191-197 | the stripped string is a contiguous stretch of the input, located by `StripOffset` |
| Text.StripRemovesOnlyOuterSpace | main.py:95-97 | everything stripping removes, before and after the kept stretch, is white space |
| Text.StripEmptyIff | config.py:17 | a string strips to empty exactly when it has no non-white-space character |
| Scheduler.IsTruthy | main.py:205-208 | a flag cell reads as sent exactly when it equals "true", "1" or "yes" up to ASCII case, with no trimming |
| Scheduler.TruthyHasNoSpace | main.py:205-208 | a cell that reads as sent contains no white space at all, so padded values read as unset |
| Scheduler.SentMarkerIsTruthy | main.py:262 | the "TRUE" that write-back stores reads back as sent, and an empty cell reads as unset |
| Scheduler.SelectStage | main.py:213-221 | a chosen stage is unsent with its threshold reached, and no earlier stage is; nothing is chosen exactly when no stage is eligible |
| Scheduler.SelectStageIsFirstEligible | main.py:213-221 | the chain of tests equals a first-eligible search over day0, day1, day3, day7 |
| Scheduler.StagesAscending | main.py:214-220 | stages are tried in strictly ascending threshold order |
| Scheduler.ThresholdsMatchSchedule | config.py:65-70 | the hard-coded thresholds are the values of the configured schedule for every stage |
| Scheduler.AllSentSelectsNothing | main.py:214-224 | a lead with all four flags set is never due |
| Scheduler.EarlierEligibleWins | main.py:214-221 | an eligible earlier stage rules out every later one |
| Scheduler.Day0Edges | main.py:214-215 | negative elapsed days select nothing; an unsent day 0 wins from day count 0 on |
| Scheduler.ElapsedDays | main.py:210-211 | with no readable last update the elapsed days are 0, otherwise today's day number minus the last update's |
| Scheduler.MissingDateOnlyDay0 | main.py:210-215 | without a readable last update only day 0 can be chosen, and it is chosen when unsent |
| Scheduler.FutureDateSelectsNothing | main.py:211-221 | a last update after today selects no stage |
| Dates.OrdinalInYear | main.py:211 | the day count behind `toordinal` makes 0001-01-01 day 1 and puts every date among its own year's numbers |
| Dates.OrdinalOrder | main.py:211 | one date precedes another exactly when its day number is smaller, and equal day numbers mean equal dates |
| Dates.OrdinalNextDay | main.py:211 | the day number of the next calendar day is one more, so date differences count days |
| Dates.IsoFormat | main.py:264 | the stamp is ten characters: four, two and two digits separated by dashes |
| Dates.IsoRoundTrip | main.py:264 | reading the ISO stamp back gives the same date |
| Dates.ParseIso | main.py:264 | a text the strict ISO reader accepts is exactly the stamp of the date it reads |
| Config.RequireEnv | config.py:15-19 | fails with the key's error exactly when the variable is unset or blank, otherwise yields the value unstripped |
| Config.LoadSettings | config.py:22-58 | fails exactly when a required variable is unusable, naming the first in reading order; on success every field is its required or optional setting, and the fallback URL is absent exactly when the API key is empty and is the fixed OpenRouter completions URL otherwise |
| Config.OptionalSetting | config.py:31-32 | an optional setting never starts or ends with white space |
| Config.OptionalSettingDefaults | config.py:24-32 | an optional setting is its stripped value when set and its default when unset |
| Config.OllamaHost | config.py:39-43 | the host is the stripped setting with one trailing '/' removed when present, unchanged otherwise |
| Config.OllamaHostDefault | config.py:39 | with OLLAMA_HOST unset the host is the local default address |
| Config.OpenRouterUrl | config.py:52-58 | the fallback URL is absent exactly when the API key is empty, and otherwise the fixed completions URL |
| Config.FollowupDaysAscending | config.py:65-70 | the schedule 0, 1, 3, 7 is strictly ascending |
| Generation.Collect | main.py:79-93 | a stream with no throwing line is read to a result; with no done marker either, the result is all fragments in order; a throwing first line aborts |
| Generation.CollectIsConcatThroughDone | main.py:79-93 | the read loop aborts exactly when a throwing line comes before the first done marker, and otherwise yields the fragments up to and including the done line, in order |
| Generation.SkipIsIgnored | main.py:81-87 | a blank or malformed line anywhere in the stream changes nothing |
| Generation.NothingReadAfterDone | main.py:92-93 | lines after the first done marker do not affect the result |
| Generation.AskOllama | main.py:70-104 | a reply is produced exactly when the request succeeded, reading did not throw and some non-space text arrived; it is that text stripped |
| Generation.AskOpenRouter | main.py:110-138 | a request is made exactly when the API key is non-empty; the answer is the stripped first-choice content, absent when the request failed |
| Generation.Generate | main.py:232 | a primary reply is used without consulting the fallback; otherwise the fallback's answer is used, and it is asked only when a key is configured |
| Generation.NoKeyNoFallback | main.py:110-112 | without an API key the fallback is never requested and a failed primary leaves no text |
| Compose.SubjectAsWritten | main.py:246 | the subject sent is the default subject alone for an empty product, else default subject, the three-character separator as spelled in the source, product |
| Compose.Subject | main.py:246 | the intended subject is the default subject alone for an empty product, else default subject, spaced em dash, product |
| Compose.SubjectDeterminesProduct | main.py:246 | different products never share a subject, as sent or as intended |
| Compose.SubjectAsWrittenIsGarbled | main.py:246 | the separator as written puts a euro sign into every product-bearing subject, which therefore differs from the intended one |
| Compose.Body | main.py:240-244 | the body is the greeting opening, the name, the greeting close, the text, the sign-off, the sender name and the closing tag, each at its position and nothing else |
| Compose.BodyDeterminesText | main.py:240-244 | for a fixed lead and sender, the body determines the generated text |
| Run.BuildLead | main.py:190-198 | each lead field is its column's cell stripped of surrounding white space, or empty when the record has no such column |
| Run.ReadFlags | main.py:205-208 | each stage's flag is the truthiness of its own column's cell |
| Run.ReadLastUpdated | main.py:166-172 | an empty LastUpdated cell is no date, without consulting the parser; any other cell is what the parser makes of it |
| Run.DueStage | main.py:205-221 | a due stage's flag is never set; with a readable last update the due stage is the first eligible one for today's day number minus the update's; without one it is day 0 exactly when day 0's flag is unset |
| Run.Draft | main.py:228-232 | no text when the template raises; otherwise the primary's answer to the rendered prompt when it has one, else the fallback's; any text is stripped |
| Run.DeliveredMail | main.py:240-249 | a sent email went to the record's stripped Email cell, under the as-written subject built from its stripped Product cell, with the body greeting its stripped LeadName cell and carrying the generated text and the sender's name |
| Run.Decide | main.py:188-253 | a row is skipped for a blank email, is not due exactly when no stage is selected, stops the run exactly when the template raises, fails generation exactly when the rendered prompt yields no text, fails sending exactly when the mailer rejects the email, and is delivered otherwise; a delivered stage is the due stage and its text the generated one |
| Run.ColumnMapFinds | main.py:185 | the column map knows exactly the header's names, maps each to a column holding it, and to its last occurrence |
| Run.WriteBack | main.py:255-264 | write-back halts exactly when a needed column is missing; it writes nothing without the flag column, then the flag "TRUE", then the body if its column exists, then the date stamp if its column exists, each to its own column, stopping at the first missing one |
| Run.CompleteWriteBack | main.py:262-264 | with every needed column present, write-back is exactly three updates of its row: the stage flag "TRUE", the body, the stamp |
| Run.StampingEffect | main.py:262-264 | those three updates of a record stamp it and change no other record |
| Run.WriteBackTouchesOnlyItsFlag | main.py:255-264 | write-back stays in its row and the header, and the only flag column it writes is the stage's own, with "TRUE" |
| Run.WriteBackEffect | main.py:262-264 | a complete write-back in a record leaves it with its stage flag "TRUE", the last email body and the stamp, and changes no other cell or record |
| Run.ApplyAllConcat | main.py:262-264 | applying two batches of updates in turn is applying them joined |
| Run.RowStepEffect | main.py:228-264 | when the header has the columns a sent email's write-back needs, a row's own updates leave its record stamped if its email was sent and unchanged otherwise, and no other record changes |
| Run.RowStep | main.py:228-264 | a row writes cells only after a delivery, and stops the run exactly on a template failure or a missing column |
| Run.RowStepTouchesOnlyItsFlag | main.py:255-264 | every update of a row stays in its sheet row, and writes a flag only for the delivered stage, with "TRUE" |
| Run.RowStepCount | main.py:262-264 | with a complete header and a rendering template a row continues the run and writes three cells if delivered, none otherwise |
| Run.Outcomes | main.py:188-253 | one outcome per record, in sheet order, each the decision `Run.Decide` makes for that record; the run-level contracts speak of these outcomes |
| Run.RunFrom | main.py:188-264 | every update of the loop lies in sheet row record+2 of a delivered record, inside the header, and writes only that record's stage flag; the loop halts exactly when some row halts, no update lands after a halting row, and every update of each row the loop reaches (no earlier row halted) is issued, so cells written before a KeyError stay written |
| Run.RunBot | main.py:178-270 | every update of the run lies in the row of a record whose outcome is a sent email, inside the header, and writes a flag column only for that record's stage, with "TRUE"; the run stops early exactly when some record's template raises or its write-back misses a column, no record after such a record is written, and every update of each record the run reaches is issued |
| Run.RunWritesNothingAfterHalt | main.py:178-270 | once a record's template raises or its write-back misses a column, the run stops and no later record is written |
| Run.RunFromEffect | main.py:188-264 | when the header has the columns every sent email's write-back needs (`Run.ColumnsForSends`), the loop from a record on leaves earlier records alone, every record it reaches stamped if its email was sent and unchanged otherwise, and every record after a failing template unchanged |
| Run.RunRecordsEachSend | main.py:178-270 | when the header has the columns every sent email's write-back needs, so a sheet lacking a flag column qualifies while no email of that stage is sent, after the run every record reached before any template failure holds, if its email was sent, its own stage flag "TRUE", its own email text and today's stamp; every other record is unchanged |
| Run.RecordAfterRun | main.py:178-270 | under the same header condition, the same per record, stated with each record's decision: stamped as its own outcome says when no earlier template raised, unchanged when one did |
| Run.RunWritesThreePerSend | main.py:188-264 | with a complete header and no template failure the loop never halts and writes three cells per delivered email |
| Run.RunBotWritesThreePerSend | main.py:178-270 | the whole run over a sheet with a complete header and rendering templates completes and writes exactly three cells per sent email |
| Run.FlagsNeverCleared | main.py:262 | updates that write flags only with "TRUE" never unset a set flag |
| Run.RunNeverClearsFlags | main.py:262 | after the run no flag that was set is unset |
| Run.RunKeepsOtherFlags | main.py:255-262 | after the run every flag cell is unchanged except the delivered stage's flag of its record |
| Run.RunWritesOnlySentRows | main.py:200-253 | a record skipped, not due, whose generation failed or whose send failed is left exactly as it was |
| Run.RecordedCells | main.py:262-264 | a delivered outcome leaves its record with exactly the three written cells changed |
| Run.RecordingKeepsEmail | main.py:262-264 | recording a send does not change the lead's email address |
| Run.Day0SetAfterRecording | main.py:213-262 | after any stage's send is recorded the day-0 flag reads as set |
| Run.NothingDueSameDay | main.py:210-221 | a record stamped today with day 0 sent is not due, when the date parser reads strict ISO dates as the dates they denote |
| Run.NoResendSameDay | main.py:188-264 | reprocessing a just-updated record on the same day sends nothing, when the date parser reads every strict ISO date as the date it denotes |

## Left out

- Google Sheets access (`connect_sheets`, `get_all_records`, `row_values`, `update_cell`) is external I/O. The records and the header are inputs, updates are an emitted list, and `Run.ApplyAll` gives their effect on the records.
- Run.ApplyAll: assumes a written value reads back as the same text. `update_cell` sends values as user-entered, so the sheet may store "TRUE" as a boolean and the ISO stamp as a date, whose read-back text depends on the sheet's formatting. The same-day results (`Run.NoResendSameDay`) depend on this assumption.
- Cell typing by `get_all_records` is not modelled. Every cell is text, so numeric cells that gspread converts, and the `strip()` that raises on them, are out of scope.
- Duplicate header names are not modelled in the records. `Run.ColumnMap` takes the last occurrence, as the dict comprehension does.
- SMTP sending is an oracle that returns whether `send_email` completed without raising.
- The HTTP and JSON details of both generators are out of scope: URLs, headers, request bodies, the model names, timeouts and `raise_for_status`. Ollama's stream arrives as already classified lines. OpenRouter's first-choice content is an oracle. The URL composition at main.py:73 is not modelled.
- `dateutil` parsing is an oracle from text to an optional date. `date.today()` is a parameter. The same-day results assume the oracle reads every strict YYYY-MM-DD text as the date it denotes (`Run.ReadsIsoDates`); its readings of other texts are left open.
- Template loading and `str.format` are a render oracle that yields no prompt when formatting raises. That oracle covers main.py:144-160.
- Logging, `time.sleep(1.2)`, the `print` banners and `load_dotenv` are side effects with no behaviour to state.
- Unicode lower-casing beyond ASCII is not modelled: the flag test lowers ASCII letters only, because Python's Unicode `lower()` maps just U+0130 and U+212A into ASCII ("i" with a combining dot, and "k"). Neither can form "true", "1" or "yes", so the flag test is exact.
- The `ValueError` of `require_env` and its message text become a `MissingEnv(key)` failure, and the module-level assignment order becomes the order of the nested matches.

## Findings

| source | as written | input that shows it | evidently intended | confidence | as-written member | corrected member |
|---|---|---|---|---|---|---|
| main.py:246 | the subject separator is the three characters U+00E2 U+20AC U+201D ("â€”"), the UTF-8 bytes of an em dash read as Windows-1252 | any lead with a non-empty product, e.g. product "CRM": the subject reads "Quick question about your interest â€” CRM" | a spaced em dash, " — " | high that the text is garbled; not executed | Compose.SubjectAsWritten, Compose.SubjectAsWrittenIsGarbled | Compose.Subject |

The run (`Run.Mail`) sends the subject as written. `Compose.Subject` holds the corrected definition with its decomposition proved; the model does not substitute it into the run, since the agent as written mails the garbled line.

=== FILE: compose.dfy ===
/**
 * The email a lead receives: its subject line and its HTML body.
 */
module Compose {

  /** The separator between the default subject and the product, as the
      source file spells it: an em dash whose UTF-8 bytes were decoded as
      Windows-1252, giving the three characters U+00E2 U+20AC U+201D. */
  const SeparatorAsWritten: string := " \U{e2}\U{20ac}\U{201d} "

  /** The separator evidently meant: a spaced em dash. */
  const Separator: string := " \U{2014} "

  /** The subject line the agent sends: the default subject, followed by
      the garbled separator and the product when the lead names one. */
  function SubjectAsWritten(defaultSubject: string, product: string): (r: string)
    ensures product == "" ==> r == defaultSubject
    ensures product != "" ==> (&& |r| == |defaultSubject| + |SeparatorAsWritten| + |product|
                               && r[..|defaultSubject|] == defaultSubject
                               && r[|defaultSubject|..|defaultSubject| + |SeparatorAsWritten|] == SeparatorAsWritten
                               && r[|defaultSubject| + |SeparatorAsWritten|..] == product)
  {
    if product != "" then defaultSubject + SeparatorAsWritten + product else defaultSubject
  }

  /** The subject line evidently intended: the default subject, followed
      by a spaced em dash and the product when the lead names one. */
  function Subject(defaultSubject: string, product: string): (r: string)
    ensures product == "" ==> r == defaultSubject
    ensures product != "" ==> (&& |r| == |defaultSubject| + |Separator| + |product|
                               && r[..|defaultSubject|] == defaultSubject
                               && r[|defaultSubject|..|defaultSubject| + |Separator|] == Separator
                               && r[|defaultSubject| + |Separator|..] == product)
  {
    if product != "" then defaultSubject + Separator + product else defaultSubject
  }

  /** The subject determines the product: two leads with different products
      never get the same subject, garbled or not. */
  lemma SubjectDeterminesProduct(defaultSubject: string, p1: string, p2: string)
    ensures Subject(defaultSubject, p1) == Subject(defaultSubject, p2) ==> p1 == p2
    ensures SubjectAsWritten(defaultSubject, p1) == SubjectAsWritten(defaultSubject, p2) ==> p1 == p2
  {
    if p1 != "" && p2 != "" {
      var s, w := Subject(defaultSubject, p1), SubjectAsWritten(defaultSubject, p1);
      assert p1 == s[|defaultSubject| + |Separator|..];
      assert p1 == w[|defaultSubject| + |SeparatorAsWritten|..];
    }
  }

  /** The product-bearing subject as written contains a euro sign, a
      character no intended separator has, and differs from the intended
      subject for every product. */
  lemma SubjectAsWrittenIsGarbled(defaultSubject: string, product: string)
    requires product != ""
    ensures '\U{20ac}' in SubjectAsWritten(defaultSubject, product)
    ensures '\U{20ac}' !in Separator
    ensures SubjectAsWritten(defaultSubject, product) != Subject(defaultSubject, product)
  {
    var w := SubjectAsWritten(defaultSubject, product);
    assert w[|defaultSubject| + 2] == '\U{20ac}';
    assert |w| != |Subject(defaultSubject, product)|;
  }

  const GreetingOpen: string := "<p>Hi "
  const GreetingClose: string := ",</p><p>"
  const SignOff: string := "</p><p>Best regards,<br>"
  const BodyClose: string := "</p>"

  /** The HTML body: greeting with the lead's name, the generated text as
      its own paragraph, and the sign-off with the sender's display name. */
  function Body(name: string, text: string, fromName: string): (r: string)
    ensures var start := |GreetingOpen| + |name| + |GreetingClose|;
            && |r| == start + |text| + |SignOff| + |fromName| + |BodyClose|
            && r[..|GreetingOpen|] == GreetingOpen
            && r[|GreetingOpen|..|GreetingOpen| + |name|] == name
            && r[|GreetingOpen| + |name|..start] == GreetingClose
            && r[start..start + |text|] == text
            && r[start + |text|..start + |text| + |SignOff|] == SignOff
            && r[start + |text| + |SignOff|..|r| - |BodyClose|] == fromName
            && r[|r| - |BodyClose|..] == BodyClose
  {
    GreetingOpen + name + GreetingClose + text + SignOff + fromName + BodyClose
  }

  /** For a given lead and sender the body determines the generated text. */
  lemma BodyDeterminesText(name: string, t1: string, t2: string, fromName: string)
    requires Body(name, t1, fromName) == Body(name, t2, fromName)
    ensures t1 == t2
  {
    var start := |GreetingOpen| + |name| + |GreetingClose|;
    var b := Body(name, t1, fromName);
    assert t1 == b[start..start + |t1|] == t2;
  }
}

=== FILE: config.dfy ===
/**
 * Start-up settings of the follow-up agent, read from the process
 * environment. The environment is a map from variable names to values; a
 * name that is not in the map is an unset variable.
 */
module Config {
  import opened Wrappers
  import opened Text

  type Env = map<string, string>

  /** The error raised when a required variable is unset or blank. */
  datatype ConfigError = MissingEnv(key: string)

  const DefaultSheetName: string := "Sheet1"
  const DefaultFromName: string := "Your Company"
  const DefaultSubject: string := "Quick question about your interest"
  const DefaultOllamaHost: string := "http://localhost:11434"
  const OpenRouterCompletionsUrl: string := "https://openrouter.ai/v1/chat/completions"

  /** The variables without which the agent refuses to start, in the order
      they are read. */
  const RequiredKeys: seq<string> := ["SPREADSHEET_ID", "GMAIL_FROM", "GMAIL_APP_PASSWORD", "OLLAMA_MODEL"]

  /** The follow-up schedule: days after the last update at which each stage
      falls due. */
  const FollowupDays: map<string, int> := map["day0" := 0, "day1" := 1, "day3" := 3, "day7" := 7]

  /** `os.getenv(key, default)`. */
  function GetEnv(env: Env, key: string, default: string): string {
    if key in env then env[key] else default
  }

  /** A required variable is usable when it is set to something other than
      white space. */
  predicate Usable(env: Env, key: string) {
    key in env && HasContent(env[key])
  }

  /** The first of `keys` that is not usable, if any. */
  function FirstUnusable(env: Env, keys: seq<string>): (r: Option<string>)
    ensures r.Some? ==> r.value in keys && !Usable(env, r.value)
    ensures r.None? <==> forall k :: k in keys ==> Usable(env, k)
  {
    if keys == [] then None
    else if !Usable(env, keys[0]) then Some(keys[0])
    else FirstUnusable(env, keys[1..])
  }

  /** `FirstUnusable` over the required keys, spelled out key by key. */
  lemma FirstUnusableRequired(env: Env)
    ensures FirstUnusable(env, RequiredKeys) ==
              if !Usable(env, "SPREADSHEET_ID") then Some("SPREADSHEET_ID")
              else if !Usable(env, "GMAIL_FROM") then Some("GMAIL_FROM")
              else if !Usable(env, "GMAIL_APP_PASSWORD") then Some("GMAIL_APP_PASSWORD")
              else if !Usable(env, "OLLAMA_MODEL") then Some("OLLAMA_MODEL")
              else None
  {
    var k0 := RequiredKeys;
    var k1 := ["GMAIL_FROM", "GMAIL_APP_PASSWORD", "OLLAMA_MODEL"];
    var k2 := ["GMAIL_APP_PASSWORD", "OLLAMA_MODEL"];
    var k3 := ["OLLAMA_MODEL"];
    assert k0[1..] == k1 && k1[1..] == k2 && k2[1..] == k3 && k3[1..] == [];
    assert FirstUnusable(env, k3) == if !Usable(env, "OLLAMA_MODEL") then Some("OLLAMA_MODEL") else None;
    assert FirstUnusable(env, k2) == if !Usable(env, "GMAIL_APP_PASSWORD") then Some("GMAIL_APP_PASSWORD") else FirstUnusable(env, k3);
    assert FirstUnusable(env, k1) == if !Usable(env, "GMAIL_FROM") then Some("GMAIL_FROM") else FirstUnusable(env, k2);
    assert FirstUnusable(env, k0) == if !Usable(env, "SPREADSHEET_ID") then Some("SPREADSHEET_ID") else FirstUnusable(env, k1);
  }

  /** `require_env`: fails for an unset or blank variable, and otherwise
      yields the value exactly as set, surrounding white space included. */
  function RequireEnv(env: Env, key: string): (r: Result<string, ConfigError>)
    ensures r.Failure? <==> !Usable(env, key)
    ensures r.Failure? ==> r.error == MissingEnv(key)
    ensures r.Success? ==> key in env && r.value == env[key]
  {
    if key !in env then Failure(MissingEnv(key))
    else
      StripEmptyIff(env[key]);
      if Strip(env[key]) == "" then Failure(MissingEnv(key)) else Success(env[key])
  }

  /** `os.getenv(key, default).strip()`: an optional setting. */
  function OptionalSetting(env: Env, key: string, default: string): (r: string)
    ensures r != [] ==> !IsSpace(r[0]) && !IsSpace(r[|r| - 1])
  {
    Strip(GetEnv(env, key, default))
  }

  /** Removes one trailing '/', if there is one. */
  function DropTrailingSlash(h: string): (r: string)
    ensures r == h || (h == r + "/")
    ensures |h| > 0 && h[|h| - 1] == '/' ==> |r| == |h| - 1
  {
    if |h| > 0 && h[|h| - 1] == '/' then h[..|h| - 1] else h
  }

  /** The Ollama base address: the stripped setting or the local default,
      with at most one trailing '/' removed. */
  function OllamaHost(env: Env): (r: string)
    ensures var h := OptionalSetting(env, "OLLAMA_HOST", DefaultOllamaHost);
            && (|h| > 0 && h[|h| - 1] == '/' ==> h == r + "/")
            && (!(|h| > 0 && h[|h| - 1] == '/') ==> r == h)
  {
    DropTrailingSlash(OptionalSetting(env, "OLLAMA_HOST", DefaultOllamaHost))
  }

  /** With OLLAMA_HOST unset the agent talks to the local default address. */
  lemma OllamaHostDefault(env: Env)
    requires "OLLAMA_HOST" !in env
    ensures OllamaHost(env) == DefaultOllamaHost
  {
    DefaultIsStripped(DefaultOllamaHost);
  }

  /** The fallback endpoint exists exactly when an API key is configured. */
  function OpenRouterUrl(apiKey: string): (r: Option<string>)
    ensures r.None? <==> apiKey == ""
    ensures r.Some? ==> r.value == OpenRouterCompletionsUrl
  {
    if apiKey != "" then Some(OpenRouterCompletionsUrl) else None
  }

  /** Everything the agent reads from the environment at start-up. */
  datatype Settings = Settings(
    spreadsheetId: string,
    sheetName: string,
    gmailFrom: string,
    gmailAppPassword: string,
    fromName: string,
    defaultSubject: string,
    ollamaHost: string,
    ollamaModel: string,
    openRouterApiKey: string,
    openRouterUrl: Option<string>)

  /** Loading the settings succeeds exactly when all required variables are
      usable; otherwise it reports the first unusable one in reading order. */
  function LoadSettings(env: Env): (r: Result<Settings, ConfigError>)
    ensures r.Failure? <==> FirstUnusable(env, RequiredKeys).Some?
    ensures r.Failure? ==> r.error == MissingEnv(FirstUnusable(env, RequiredKeys).value)
    ensures r.Success? ==> (&& RequireEnv(env, "SPREADSHEET_ID") == Success(r.value.spreadsheetId)
                            && RequireEnv(env, "GMAIL_FROM") == Success(r.value.gmailFrom)
                            && RequireEnv(env, "GMAIL_APP_PASSWORD") == Success(r.value.gmailAppPassword)
                            && RequireEnv(env, "OLLAMA_MODEL") == Success(r.value.ollamaModel))
    ensures r.Success? ==> (&& r.value.sheetName == OptionalSetting(env, "SHEET_NAME", DefaultSheetName)
                            && r.value.fromName == OptionalSetting(env, "FROM_NAME", DefaultFromName)
                            && r.value.defaultSubject == OptionalSetting(env, "DEFAULT_SUBJECT", DefaultSubject)
                            && r.value.ollamaHost == OllamaHost(env)
                            && r.value.openRouterApiKey == OptionalSetting(env, "OPENROUTER_API_KEY", ""))
    ensures r.Success? ==> (r.value.openRouterUrl.None? <==> r.value.openRouterApiKey == "")
    ensures r.Success? && r.value.openRouterApiKey != "" ==> r.value.openRouterUrl == Some(OpenRouterCompletionsUrl)
  {
    FirstUnusableRequired(env);
    match RequireEnv(env, "SPREADSHEET_ID")
    case Failure(e) => Failure(e)
    case Success(spreadsheetId) =>
      var sheetName := OptionalSetting(env, "SHEET_NAME", DefaultSheetName);
      match RequireEnv(env, "GMAIL_FROM")
      case Failure(e) => Failure(e)
      case Success(gmailFrom) =>
        match RequireEnv(env, "GMAIL_APP_PASSWORD")
        case Failure(e) => Failure(e)
        case Success(gmailAppPassword) =>
          var fromName := OptionalSetting(env, "FROM_NAME", DefaultFromName);
          var defaultSubject := OptionalSetting(env, "DEFAULT_SUBJECT", DefaultSubject);
          var ollamaHost := OllamaHost(env);
          match RequireEnv(env, "OLLAMA_MODEL")
          case Failure(e) => Failure(e)
          case Success(ollamaModel) =>
            var apiKey := OptionalSetting(env, "OPENROUTER_API_KEY", "");
            Success(Settings(spreadsheetId, sheetName, gmailFrom, gmailAppPassword,
                             fromName, defaultSubject, ollamaHost, ollamaModel,
                             apiKey, OpenRouterUrl(apiKey)))
  }

  /** The built-in defaults carry no surrounding white space. */
  lemma DefaultIsStripped(d: string)
    requires d == DefaultSheetName || d == DefaultFromName || d == DefaultSubject
             || d == DefaultOllamaHost || d == ""
    ensures Strip(d) == d
  {
    if d == DefaultSheetName {
      StripOfStripped(DefaultSheetName);
    } else if d == DefaultFromName {
      StripOfStripped(DefaultFromName);
    } else if d == DefaultSubject {
      StripOfStripped(DefaultSubject);
    } else if d == DefaultOllamaHost {
      StripOfStripped(DefaultOllamaHost);
    }
  }

  /** An optional setting is its stripped value when set and its default
      when unset. */
  lemma OptionalSettingDefaults(env: Env, key: string, default: string)
    requires default == DefaultSheetName || default == DefaultFromName || default == DefaultSubject
             || default == DefaultOllamaHost || default == ""
    ensures key in env ==> OptionalSetting(env, key, default) == Strip(env[key])
    ensures key !in env ==> OptionalSetting(env, key, default) == default
  {
    DefaultIsStripped(default);
  }

  /** The configured schedule is strictly ascending in stage order. */
  lemma FollowupDaysAscending()
    ensures FollowupDays["day0"] < FollowupDays["day1"] < FollowupDays["day3"] < FollowupDays["day7"]
  {
  }
}

=== FILE: dates.dfy ===
/**
 * The slice of Python's `datetime.date` the agent uses: the day count behind
 * `(today - last_dt).days` and the `isoformat()` text written back to the
 * LastUpdated column.
 */
module Dates {
  import opened Wrappers

  /** A calendar date of the proleptic Gregorian calendar. */
  datatype Date = Date(year: int, month: int, day: int)

  const MinYear: int := 1
  const MaxYear: int := 9999

  predicate IsLeap(y: int) {
    y % 4 == 0 && (y % 100 != 0 || y % 400 == 0)
  }

  function DaysInMonth(y: int, m: int): int
    requires 1 <= m <= 12
  {
    if m == 2 then (if IsLeap(y) then 29 else 28)
    else if m == 4 || m == 6 || m == 9 || m == 11 then 30
    else 31
  }

  function DaysInYear(y: int): int {
    if IsLeap(y) then 366 else 365
  }

  /** The dates Python's `date` can represent. */
  predicate Valid(d: Date) {
    && MinYear <= d.year <= MaxYear
    && 1 <= d.month <= 12
    && 1 <= d.day <= DaysInMonth(d.year, d.month)
  }

  /** A date that exists. */
  type CalendarDate = d: Date | Valid(d) witness Date(1, 1, 1)

  /** Days in the years before `y`, counted from year 1. */
  function DaysBeforeYear(y: int): int
    requires y >= 1
  {
    var y1 := y - 1;
    y1 * 365 + y1 / 4 - y1 / 100 + y1 / 400
  }

  /** Days in the months of year `y` before month `m`. */
  function DaysBeforeMonth(y: int, m: int): int
    requires 1 <= m <= 12
  {
    [0, 31, 59, 90, 120, 151, 181, 212, 243, 273, 304, 334][m - 1]
      + (if m > 2 && IsLeap(y) then 1 else 0)
  }

  /** Python's `date.toordinal()`: 0001-01-01 is day 1. */
  function Ordinal(d: CalendarDate): int
  {
    DaysBeforeYear(d.year) + DaysBeforeMonth(d.year, d.month) + d.day
  }

  /** The count starts at 0001-01-01 as day 1, and each date's number lies
      among the numbers of its own year. */
  lemma OrdinalInYear(d: CalendarDate)
    ensures d == Date(1, 1, 1) ==> Ordinal(d) == 1
    ensures DaysBeforeYear(d.year) < Ordinal(d) <= DaysBeforeYear(d.year) + DaysInYear(d.year)
  {
    MonthsFitYear(d.year, d.month);
  }

  /** A month ends no later than its year, and no later than any later
      month begins. */
  lemma MonthsFitYear(y: int, m: int)
    requires 1 <= m <= 12
    ensures DaysBeforeMonth(y, m) + DaysInMonth(y, m) <= DaysInYear(y)
    ensures forall m2 :: m < m2 <= 12 ==> DaysBeforeMonth(y, m) + DaysInMonth(y, m) <= DaysBeforeMonth(y, m2)
  {
  }

  /** A year ends no later than any later year begins. */
  lemma {:induction false} YearsInOrder(y1: int, y2: int)
    requires 1 <= y1 < y2
    ensures DaysBeforeYear(y1) + DaysInYear(y1) <= DaysBeforeYear(y2)
    decreases y2 - y1
  {
    DaysBeforeNextYear(y1);
    if y1 + 1 < y2 {
      YearsInOrder(y1 + 1, y2);
    }
  }

  /** `d1` comes before `d2` on the calendar. */
  predicate Before(d1: Date, d2: Date) {
    || d1.year < d2.year
    || (d1.year == d2.year && d1.month < d2.month)
    || (d1.year == d2.year && d1.month == d2.month && d1.day < d2.day)
  }

  /** Day numbers follow the calendar: one date precedes another exactly
      when its number is smaller, so distinct dates have distinct numbers. */
  lemma OrdinalOrder(d1: CalendarDate, d2: CalendarDate)
    ensures Before(d1, d2) <==> Ordinal(d1) < Ordinal(d2)
    ensures Ordinal(d1) == Ordinal(d2) ==> d1 == d2
  {
    OrdinalInYear(d1);
    OrdinalInYear(d2);
    if d1.year < d2.year {
      YearsInOrder(d1.year, d2.year);
    } else if d2.year < d1.year {
      YearsInOrder(d2.year, d1.year);
    } else if d1.month != d2.month {
      MonthsFitYear(d1.year, d1.month);
      MonthsFitYear(d2.year, d2.month);
    }
  }

  /** Whole days from `earlier` to `later`, as `(later - earlier).days`;
      negative when `earlier` lies in the future. */
  function DaysBetween(earlier: CalendarDate, later: CalendarDate): int
  {
    Ordinal(later) - Ordinal(earlier)
  }

  /** The calendar's successor of a date. */
  function NextDay(d: CalendarDate): (n: CalendarDate)
    requires d != Date(MaxYear, 12, 31)
  {
    if d.day < DaysInMonth(d.year, d.month) then Date(d.year, d.month, d.day + 1)
    else if d.month < 12 then Date(d.year, d.month + 1, 1)
    else Date(d.year + 1, 1, 1)
  }

  /** A year contributes exactly its length to the day count. */
  lemma DaysBeforeNextYear(y: int)
    requires y >= 1
    ensures DaysBeforeYear(y + 1) == DaysBeforeYear(y) + DaysInYear(y)
  {
    assert y / 4 - (y - 1) / 4 == if y % 4 == 0 then 1 else 0;
    assert y / 100 - (y - 1) / 100 == if y % 100 == 0 then 1 else 0;
    assert y / 400 - (y - 1) / 400 == if y % 400 == 0 then 1 else 0;
  }

  /** Consecutive calendar dates have consecutive ordinals, so `DaysBetween`
      counts calendar days. */
  lemma OrdinalNextDay(d: CalendarDate)
    requires d != Date(MaxYear, 12, 31)
    ensures Ordinal(NextDay(d)) == Ordinal(d) + 1
  {
    if d.day == DaysInMonth(d.year, d.month) && d.month == 12 {
      DaysBeforeNextYear(d.year);
    }
  }

  // ---------------------------------------------------------------------
  // ISO 8601 text, as `date.isoformat()` writes it: YYYY-MM-DD
  // ---------------------------------------------------------------------

  predicate IsDigit(c: char) {
    '0' <= c <= '9'
  }

  predicate AllDigits(s: string) {
    forall i :: 0 <= i < |s| ==> IsDigit(s[i])
  }

  function Pow10(w: nat): nat {
    if w == 0 then 1 else 10 * Pow10(w - 1)
  }

  /** `n` in decimal, left-padded with zeros to exactly `w` digits. */
  function PadDigits(n: nat, w: nat): (s: string)
    requires n < Pow10(w)
    ensures |s| == w && AllDigits(s)
  {
    if w == 0 then []
    else PadDigits(n / 10, w - 1) + [('0' as int + n % 10) as char]
  }

  /** The number a run of decimal digits denotes. */
  function DigitsValue(s: string): nat
    requires AllDigits(s)
  {
    if s == [] then 0
    else DigitsValue(s[..|s| - 1]) * 10 + (s[|s| - 1] as int - '0' as int)
  }

  /** Reading the padded digits back gives the number written. */
  lemma {:induction false} DigitsRoundTrip(n: nat, w: nat)
    requires n < Pow10(w)
    ensures DigitsValue(PadDigits(n, w)) == n
  {
    if w > 0 {
      var s := PadDigits(n, w);
      assert s[..|s| - 1] == PadDigits(n / 10, w - 1);
      DigitsRoundTrip(n / 10, w - 1);
    }
  }

  /** `date.isoformat()`: four-digit year, two-digit month and day. */
  function IsoFormat(d: CalendarDate): (s: string)
    ensures |s| == 10 && s[4] == '-' && s[7] == '-'
    ensures AllDigits(s[..4]) && AllDigits(s[5..7]) && AllDigits(s[8..])
  {
    var s := PadDigits(d.year, 4) + "-" + PadDigits(d.month, 2) + "-" + PadDigits(d.day, 2);
    assert s[..4] == PadDigits(d.year, 4);
    assert s[5..7] == PadDigits(d.month, 2);
    assert s[8..] == PadDigits(d.day, 2);
    s
  }

  /** A run of digits is the zero-padded form of the number it denotes. */
  lemma {:induction false} PadDigitsOfValue(t: string)
    requires AllDigits(t)
    ensures DigitsValue(t) < Pow10(|t|) && PadDigits(DigitsValue(t), |t|) == t
  {
    if t != [] {
      var init, last := t[..|t| - 1], t[|t| - 1];
      assert AllDigits(init) && IsDigit(last);
      PadDigitsOfValue(init);
      var n := DigitsValue(t);
      assert n / 10 == DigitsValue(init) && n % 10 == last as int - '0' as int;
      assert t == init + [last];
    }
  }

  /** The shape of the text `IsoFormat` writes: YYYY-MM-DD in digits. */
  predicate IsoShaped(s: string) {
    |s| == 10 && s[4] == '-' && s[7] == '-'
    && AllDigits(s[..4]) && AllDigits(s[5..7]) && AllDigits(s[8..])
  }

  /** The date an ISO-shaped text spells, whether or not it exists. */
  function IsoFields(s: string): Date
    requires IsoShaped(s)
  {
    Date(DigitsValue(s[..4]), DigitsValue(s[5..7]), DigitsValue(s[8..]))
  }

  /** An ISO-shaped text naming an existing date is that date's stamp. */
  lemma IsoFieldsFormat(s: string)
    requires IsoShaped(s) && Valid(IsoFields(s))
    ensures IsoFormat(IsoFields(s)) == s
  {
    var y, m, d := s[..4], s[5..7], s[8..];
    PadDigitsOfValue(y);
    PadDigitsOfValue(m);
    PadDigitsOfValue(d);
    var date: CalendarDate := IsoFields(s);
    assert IsoFormat(date) == PadDigits(date.year, 4) + "-" + PadDigits(date.month, 2) + "-" + PadDigits(date.day, 2);
    assert IsoFormat(date) == y + "-" + m + "-" + d;
    assert s == y + "-" + m + "-" + d;
  }

  /** Reads a strict YYYY-MM-DD string; `None` for anything else or for a
      date that does not exist. A date it reads is written back as exactly
      the text it was read from. */
  function ParseIso(s: string): (r: Option<CalendarDate>)
    ensures r.Some? ==> IsoFormat(r.value) == s
  {
    if IsoShaped(s) && Valid(IsoFields(s)) then
      IsoFieldsFormat(s);
      Some(IsoFields(s))
    else None
  }

  /** The text `IsoFormat` writes reads back as the same date. */
  lemma IsoRoundTrip(d: CalendarDate)
    ensures ParseIso(IsoFormat(d)) == Some(d)
  {
    var s := IsoFormat(d);
    assert s[..4] == PadDigits(d.year, 4);
    assert s[5..7] == PadDigits(d.month, 2);
    assert s[8..] == PadDigits(d.day, 2);
    DigitsRoundTrip(d.year, 4);
    DigitsRoundTrip(d.month, 2);
    DigitsRoundTrip(d.day, 2);
  }
}

=== FILE: generation.dfy ===
/**
 * Text generation: the streamed reply of the local Ollama endpoint folded
 * into one message, the hosted OpenRouter fallback, and the
 * primary-then-fallback chain. The HTTP exchanges are oracles; what is
 * modelled is what the agent does with their answers.
 */
module Generation {
  import opened Wrappers
  import opened Text

  /** One line of Ollama's streamed reply, as the agent classifies it. */
  datatype Line =
    | Skip                                   // blank, or not valid JSON: ignored
    | Raise                                  // reading it throws (not a JSON object, a
                                             // non-text "response", a broken connection)
    | Item(response: Option<string>, done: bool)  // an object; `done` is the truth of its "done" key

  /** What the HTTP exchange with Ollama produced. */
  datatype PrimaryReply =
    | RequestFailed                          // connection error or HTTP error status
    | Streamed(lines: seq<Line>)

  /** The state the read loop ends in. */
  datatype Collected = Aborted | Full(text: string)

  predicate IsDone(l: Line) {
    l.Item? && l.done
  }

  /** The fragment a line contributes to the message. */
  function Fragment(l: Line): string {
    if l.Item? then l.response.GetOr("") else ""
  }

  /** The read loop of `ask_ollama`: skip ignorable lines, append each
      "response" fragment, stop after the first line marked done. A stream
      with no throwing line is always read in full; one that also has no
      done marker yields all its fragments in order; a throwing first line
      aborts. */
  function Collect(lines: seq<Line>): (r: Collected)
    ensures Raise !in lines ==> r.Full?
    ensures Raise !in lines && (forall i :: 0 <= i < |lines| ==> !IsDone(lines[i])) ==> r == Full(Concat(lines))
    ensures lines != [] && lines[0] == Raise ==> r == Aborted
  {
    if lines == [] then Full("")
    else
      match lines[0]
      case Skip => Collect(lines[1..])
      case Raise => Aborted
      case Item(response, done) =>
        var head := response.GetOr("");
        if done then Full(head)
        else
          match Collect(lines[1..])
          case Aborted => Aborted
          case Full(rest) => Full(head + rest)
  }

  // ---------------------------------------------------------------------
  // Reference reading of the stream
  // ---------------------------------------------------------------------

  /** The lines the loop reads: everything up to and including the first
      line marked done, or the whole stream. */
  function ThroughDone(lines: seq<Line>): (r: seq<Line>)
    ensures |r| <= |lines| && r == lines[..|r|]
    ensures forall i :: 0 <= i < |r| - 1 ==> !IsDone(r[i])
    ensures |r| < |lines| ==> |r| > 0 && IsDone(r[|r| - 1])
  {
    if lines == [] then []
    else if IsDone(lines[0]) then [lines[0]]
    else [lines[0]] + ThroughDone(lines[1..])
  }

  /** The fragments of `lines` concatenated in arrival order. */
  function Concat(lines: seq<Line>): string {
    if lines == [] then "" else Fragment(lines[0]) + Concat(lines[1..])
  }

  /** The loop aborts exactly when a throwing line arrives before the done
      marker, and otherwise yields every fragment up to and including the
      one carrying the marker, in order. */
  lemma {:induction false} CollectIsConcatThroughDone(lines: seq<Line>)
    ensures Collect(lines) == if Raise in ThroughDone(lines) then Aborted
                              else Full(Concat(ThroughDone(lines)))
  {
    if lines != [] {
      CollectIsConcatThroughDone(lines[1..]);
    }
  }

  /** Blank and malformed lines change nothing, wherever they arrive. */
  lemma {:induction false} SkipIsIgnored(before: seq<Line>, after: seq<Line>)
    ensures Collect(before + [Skip] + after) == Collect(before + after)
  {
    if before == [] {
      assert before + [Skip] + after == [Skip] + after;
      assert before + after == after;
      assert ([Skip] + after)[1..] == after;
    } else {
      assert (before + [Skip] + after)[1..] == before[1..] + [Skip] + after;
      assert (before + after)[1..] == before[1..] + after;
      SkipIsIgnored(before[1..], after);
    }
  }

  /** Nothing after the first done marker is read. */
  lemma {:induction false} NothingReadAfterDone(before: seq<Line>, response: Option<string>, after: seq<Line>)
    ensures Collect(before + [Item(response, true)] + after) == Collect(before + [Item(response, true)])
  {
    var d := Item(response, true);
    if before == [] {
      assert before + [d] + after == [d] + after;
      assert before + [d] == [d];
    } else {
      assert (before + [d] + after)[1..] == before[1..] + [d] + after;
      assert (before + [d])[1..] == before[1..] + [d];
      NothingReadAfterDone(before[1..], response, after);
    }
  }

  // ---------------------------------------------------------------------
  // Providers
  // ---------------------------------------------------------------------

  /** `ask_ollama`: the collected text stripped, or `None` when the request
      failed, reading threw, or only white space arrived. */
  function AskOllama(reply: PrimaryReply): (r: Option<string>)
    ensures r.Some? ==> r.value != [] && !IsSpace(r.value[0]) && !IsSpace(r.value[|r.value| - 1])
    ensures r.Some? <==> reply.Streamed? && Collect(reply.lines).Full? && HasContent(Collect(reply.lines).text)
    ensures r.Some? ==> r.value == Strip(Collect(reply.lines).text)
  {
    match reply
    case RequestFailed => None
    case Streamed(lines) =>
      match Collect(lines)
      case Aborted => None
      case Full(full) =>
        StripEmptyIff(full);
        if Strip(full) != "" then Some(Strip(full)) else None
  }

  /** The fallback's answer and whether it was asked at all. */
  datatype FallbackReply = FallbackReply(text: Option<string>, requested: bool)

  /** `ask_openrouter`: without an API key nothing is sent; otherwise the
      first choice's content stripped, or `None` on any failure. `content`
      is the oracle for the request: the content of the first choice, or
      `None` when the request or the reply's shape failed. */
  function AskOpenRouter(apiKey: string, prompt: string, content: string -> Option<string>): (r: FallbackReply)
    ensures r.requested <==> apiKey != ""
    ensures !r.requested ==> r.text.None?
    ensures r.requested ==> (r.text.None? <==> content(prompt).None?)
    ensures r.text.Some? ==> r.text.value == Strip(content(prompt).value)
  {
    if apiKey == "" then FallbackReply(None, false)
    else
      match content(prompt)
      case None => FallbackReply(None, true)
      case Some(msg) => FallbackReply(Some(Strip(msg)), true)
  }

  /** Python truthiness of an optional string. */
  predicate Truthy(t: Option<string>) {
    t.Some? && t.value != ""
  }

  /** The outcome of generating one message. */
  datatype Generated = Generated(text: Option<string>, fallbackRequested: bool)

  /** `ask_ollama(prompt) or ask_openrouter(prompt)`. */
  function Generate(prompt: string, apiKey: string,
                    primary: string -> PrimaryReply,
                    content: string -> Option<string>): (r: Generated)
    ensures AskOllama(primary(prompt)).Some? ==>
              r.text == AskOllama(primary(prompt)) && !r.fallbackRequested
    ensures r.fallbackRequested <==> AskOllama(primary(prompt)).None? && apiKey != ""
    ensures AskOllama(primary(prompt)).None? ==>
              r.text == AskOpenRouter(apiKey, prompt, content).text
  {
    var first := AskOllama(primary(prompt));
    if Truthy(first) then Generated(first, false)
    else
      var second := AskOpenRouter(apiKey, prompt, content);
      Generated(second.text, second.requested)
  }

  /** Without an API key the fallback never runs, and a failed primary
      leaves no text. */
  lemma NoKeyNoFallback(prompt: string, primary: string -> PrimaryReply, content: string -> Option<string>)
    ensures !Generate(prompt, "", primary, content).fallbackRequested
    ensures AskOllama(primary(prompt)).None? ==> Generate(prompt, "", primary, content).text.None?
  {
  }
}

=== FILE: run.dfy ===
/**
 * The run loop: one pass over the lead rows, deciding per row whether a
 * follow-up is due, generating and sending it, and emitting the cell
 * updates that record a successful send. The spreadsheet, the generators,
 * the mailer, the date parser and the prompt templates are parameters.
 */
module Run {
  import opened Wrappers
  import opened Text
  import opened Dates
  import Config
  import opened Scheduler
  import opened Generation
  import opened Compose

  /** One record of the sheet: header name to cell text. */
  type Row = map<string, string>

  /** `row.get(column, "")`. */
  function Cell(row: Row, column: string): string {
    if column in row then row[column] else ""
  }

  /** The lead fields a prompt template can use. */
  datatype Lead = Lead(timestamp: string, name: string, email: string, company: string,
                       product: string, source: string, notes: string)

  /** `value` is what the run reads from `column`: the cell stripped of
      surrounding white space, or empty when the row has no such column. */
  predicate ReadFrom(row: Row, column: string, value: string) {
    if column in row then value == Strip(row[column]) else value == ""
  }

  /** The lead as the run builds it: every field stripped, missing ones empty. */
  function BuildLead(row: Row): (l: Lead)
    ensures && ReadFrom(row, "Timestamp", l.timestamp) && ReadFrom(row, "LeadName", l.name)
            && ReadFrom(row, "Email", l.email) && ReadFrom(row, "Company", l.company)
            && ReadFrom(row, "Product", l.product) && ReadFrom(row, "Source", l.source)
            && ReadFrom(row, "LeadNotes", l.notes)
  {
    Lead(Strip(Cell(row, "Timestamp")), Strip(Cell(row, "LeadName")), Strip(Cell(row, "Email")),
         Strip(Cell(row, "Company")), Strip(Cell(row, "Product")), Strip(Cell(row, "Source")),
         Strip(Cell(row, "LeadNotes")))
  }

  /** The four sent flags of a row, each read from its own column untrimmed. */
  function ReadFlags(row: Row): (f: Flags)
    ensures forall s :: Sent(f, s) == IsTruthy(Cell(row, FlagColumn(s)))
  {
    Flags(IsTruthy(Cell(row, FlagColumn(Day0))), IsTruthy(Cell(row, FlagColumn(Day1))),
          IsTruthy(Cell(row, FlagColumn(Day3))), IsTruthy(Cell(row, FlagColumn(Day7))))
  }

  /** `parse_date`: an empty cell is no date without consulting the parser. */
  function ReadLastUpdated(cell: string, parse: string -> Option<CalendarDate>): (r: Option<CalendarDate>)
    ensures cell == "" ==> r.None?
    ensures cell != "" ==> r == parse(cell)
  {
    if cell == "" then None else parse(cell)
  }

  /** The services and inputs one run works with. */
  datatype Context = Context(
    settings: Config.Settings,
    today: CalendarDate,
    parseDate: string -> Option<CalendarDate>,
    render: (Stage, Lead) -> Option<string>,       // template.format(**lead); None when it raises
    primary: string -> PrimaryReply,
    fallback: string -> Option<string>,
    send: (string, string, string) -> bool)        // to, subject, html; false when sending raised

  /** The stage due for a row today, if any: the first stage in schedule
      order whose flag is not set and whose threshold the days since the
      LastUpdated date reach. Without a readable date only day 0 can be due. */
  function DueStage(row: Row, ctx: Context): (r: Option<Stage>)
    ensures r.Some? ==> !IsTruthy(Cell(row, FlagColumn(r.value)))
    ensures var cell := Cell(row, "LastUpdated");
            cell != "" && ctx.parseDate(cell).Some? ==>
              r == FirstEligible(Stages, ReadFlags(row), Ordinal(ctx.today) - Ordinal(ctx.parseDate(cell).value))
    ensures var cell := Cell(row, "LastUpdated");
            cell == "" || ctx.parseDate(cell).None? ==>
              r == if IsTruthy(Cell(row, FlagColumn(Day0))) then None else Some(Day0)
  {
    var cell := Cell(row, "LastUpdated");
    var f, last := ReadFlags(row), ReadLastUpdated(cell, ctx.parseDate);
    var days := ElapsedDays(ctx.today, last);
    SelectStageIsFirstEligible(f, days);
    assert last.None? ==> days == 0 && SelectStage(f, days) == if f.sent0 then None else Some(Day0);
    assert last.Some? ==> cell != "" && last == ctx.parseDate(cell);
    SelectStage(f, days)
  }

  /** How the processing of one row ends. */
  datatype Outcome =
    | NoEmail                                  // skipped: no email address
    | NotDue                                   // skipped: no stage due
    | TemplateFailed                           // rendering the prompt raised: the run stops
    | GenerationFailed                         // neither generator produced text
    | SendFailed                               // sending raised
    | Delivered(stage: Stage, text: string)    // sent; to be recorded

  /** The generated text for a lead at a stage: none when the template
      raises; otherwise the primary's answer to the rendered prompt when it
      has one, else the fallback's. Any text it yields is stripped. */
  function Draft(lead: Lead, stage: Stage, ctx: Context): (r: Option<string>)
    ensures ctx.render(stage, lead).None? ==> r.None?
    ensures ctx.render(stage, lead).Some? ==>
              var prompt := ctx.render(stage, lead).value;
              r == if AskOllama(ctx.primary(prompt)).Some? then AskOllama(ctx.primary(prompt))
                   else AskOpenRouter(ctx.settings.openRouterApiKey, prompt, ctx.fallback).text
    ensures r.Some? ==> Strip(r.value) == r.value
  {
    match ctx.render(stage, lead)
    case None => None
    case Some(prompt) =>
      var t := Generate(prompt, ctx.settings.openRouterApiKey, ctx.primary, ctx.fallback).text;
      assert t.Some? ==> Strip(t.value) == t.value by {
        if t.Some? {
          StripOfStripped(t.value);
        }
      }
      t
  }

  /** Hands the composed email to the mailer, with the subject line exactly
      as the agent builds it. */
  function Mail(lead: Lead, text: string, ctx: Context): bool {
    ctx.send(lead.email, SubjectAsWritten(ctx.settings.defaultSubject, lead.product),
             Body(lead.name, text, ctx.settings.fromName))
  }

  /** The decision and execution for one row. */
  function Decide(row: Row, ctx: Context): (r: Outcome)
    ensures var lead := BuildLead(row);
            && (r == NoEmail <==> lead.email == "")
            && (r == NotDue <==> lead.email != "" && DueStage(row, ctx).None?)
            && (r.Delivered? <==>
                  && lead.email != "" && DueStage(row, ctx).Some?
                  && Truthy(Draft(lead, DueStage(row, ctx).value, ctx))
                  && Mail(lead, Draft(lead, DueStage(row, ctx).value, ctx).value, ctx))
            && (r.Delivered? ==> && DueStage(row, ctx) == Some(r.stage)
                                 && Draft(lead, r.stage, ctx) == Some(r.text) && r.text != "")
            && (r == TemplateFailed <==>
                  && lead.email != "" && DueStage(row, ctx).Some?
                  && ctx.render(DueStage(row, ctx).value, lead).None?)
            && (r == GenerationFailed <==>
                  && lead.email != "" && DueStage(row, ctx).Some?
                  && ctx.render(DueStage(row, ctx).value, lead).Some?
                  && !Truthy(Draft(lead, DueStage(row, ctx).value, ctx)))
            && (r == SendFailed <==>
                  && lead.email != "" && DueStage(row, ctx).Some?
                  && Truthy(Draft(lead, DueStage(row, ctx).value, ctx))
                  && !Mail(lead, Draft(lead, DueStage(row, ctx).value, ctx).value, ctx))
  {
    var lead := BuildLead(row);
    if lead.email == "" then NoEmail
    else
      match DueStage(row, ctx)
      case None => NotDue
      case Some(stage) =>
        match ctx.render(stage, lead)
        case None => TemplateFailed
        case Some(prompt) =>
          var text := Generate(prompt, ctx.settings.openRouterApiKey, ctx.primary, ctx.fallback).text;
          if !Truthy(text) then GenerationFailed
          else if Mail(lead, text.value, ctx) then Delivered(stage, text.value)
          else SendFailed
  }

  /** A sent email went to the record's Email cell stripped, under the
      subject the agent builds from its Product cell stripped, with a body
      greeting its LeadName cell stripped and carrying the generated text
      and the sender's name. */
  lemma DeliveredMail(row: Row, ctx: Context)
    ensures Decide(row, ctx).Delivered? ==>
              && "Email" in row && Strip(row["Email"]) != ""
              && ctx.send(Strip(row["Email"]),
                          SubjectAsWritten(ctx.settings.defaultSubject, Strip(Cell(row, "Product"))),
                          Body(Strip(Cell(row, "LeadName")), Decide(row, ctx).text, ctx.settings.fromName))
  {
    var lead := BuildLead(row);
    assert Strip("") == "";
    assert lead.product == Strip(Cell(row, "Product")) && lead.name == Strip(Cell(row, "LeadName"));
  }

  // ---------------------------------------------------------------------
  // Write-back
  // ---------------------------------------------------------------------

  /** `ws.update_cell(row, col, value)`, rows and columns counted from 1. */
  datatype CellUpdate = CellUpdate(row: int, col: int, value: string)

  /** The cell updates of a stretch of work, and whether it ended the run. */
  datatype Step = Step(updates: seq<CellUpdate>, halted: bool)

  /** `{c: i + 1 for i, c in enumerate(header)}`: each name's column,
      the last one when a name repeats. */
  function ColumnMap(header: seq<string>): map<string, int> {
    if header == [] then map[]
    else ColumnMap(header[..|header| - 1])[header[|header| - 1] := |header|]
  }

  /** The column map knows exactly the header's names, maps each to a
      column holding that name, and to no column left of any occurrence. */
  lemma {:induction false} ColumnMapFinds(header: seq<string>)
    ensures forall c :: c in ColumnMap(header) <==> c in header
    ensures forall c :: c in ColumnMap(header) ==>
              1 <= ColumnMap(header)[c] <= |header| && header[ColumnMap(header)[c] - 1] == c
    ensures forall i :: 0 <= i < |header| ==> header[i] in ColumnMap(header) && i < ColumnMap(header)[header[i]]
  {
    if header != [] {
      var init, last := header[..|header| - 1], header[|header| - 1];
      ColumnMapFinds(init);
      assert header == init + [last];
    }
  }

  /** The header holds the three columns write-back for `stage` needs. */
  predicate HasColumnsFor(header: seq<string>, stage: Stage) {
    FlagColumn(stage) in header && "LastEmailBody" in header && "LastUpdated" in header
  }

  /** The header holds every column write-back may need. */
  predicate HasWrittenColumns(header: seq<string>) {
    forall s :: HasColumnsFor(header, s)
  }

  /** Records a successful send in sheet row `sheetRow`: the stage's flag,
      the email text and the date stamp, in that order. A column missing
      from the header raises, which ends the run after the cells already
      written. */
  function WriteBack(sheetRow: int, stage: Stage, text: string, stamp: string,
                     header: seq<string>): (r: Step)
    ensures r.halted <==> !HasColumnsFor(header, stage)
    ensures FlagColumn(stage) !in header ==> r.updates == []
    ensures FlagColumn(stage) in header ==>
              var cols := ColumnMap(header);
              && FlagColumn(stage) in cols && |r.updates| >= 1
              && r.updates[0] == CellUpdate(sheetRow, cols[FlagColumn(stage)], SentMarker)
              && ("LastEmailBody" !in header ==> |r.updates| == 1)
    ensures FlagColumn(stage) in header && "LastEmailBody" in header ==>
              var cols := ColumnMap(header);
              && "LastEmailBody" in cols && |r.updates| >= 2
              && r.updates[1] == CellUpdate(sheetRow, cols["LastEmailBody"], text)
              && ("LastUpdated" !in header ==> |r.updates| == 2)
    ensures !r.halted ==>
              var cols := ColumnMap(header);
              && FlagColumn(stage) in cols && "LastEmailBody" in cols && "LastUpdated" in cols
              && r.updates == [CellUpdate(sheetRow, cols[FlagColumn(stage)], SentMarker),
                               CellUpdate(sheetRow, cols["LastEmailBody"], text),
                               CellUpdate(sheetRow, cols["LastUpdated"], stamp)]
  {
    var cols := ColumnMap(header);
    ColumnMapFinds(header);
    if FlagColumn(stage) !in cols then Step([], true)
    else
      var flag := CellUpdate(sheetRow, cols[FlagColumn(stage)], SentMarker);
      if "LastEmailBody" !in cols then Step([flag], true)
      else
        var body := CellUpdate(sheetRow, cols["LastEmailBody"], text);
        if "LastUpdated" !in cols then Step([flag, body], true)
        else Step([flag, body, CellUpdate(sheetRow, cols["LastUpdated"], stamp)], false)
  }

  /** Write-back stays in its row and inside the header, and the only flag
      column it writes is the stage's own, with "TRUE". */
  lemma WriteBackTouchesOnlyItsFlag(sheetRow: int, stage: Stage, text: string, stamp: string,
                                    header: seq<string>)
    ensures forall u :: u in WriteBack(sheetRow, stage, text, stamp, header).updates ==>
              && u.row == sheetRow && 1 <= u.col <= |header|
              && (IsFlagColumn(header[u.col - 1]) ==>
                    header[u.col - 1] == FlagColumn(stage) && u.value == SentMarker)
  {
    var cols := ColumnMap(header);
    ColumnMapFinds(header);
    var r := WriteBack(sheetRow, stage, text, stamp, header);
    var flag, body, date := FlagColumn(stage), "LastEmailBody", "LastUpdated";
    assert !IsFlagColumn(body) && !IsFlagColumn(date);
    forall u | u in r.updates
      ensures && u.row == sheetRow && 1 <= u.col <= |header|
              && (IsFlagColumn(header[u.col - 1]) ==>
                    header[u.col - 1] == flag && u.value == SentMarker)
    {
      assert flag in cols;
      if u == CellUpdate(sheetRow, cols[flag], SentMarker) {
        assert header[u.col - 1] == flag;
      } else if body in cols && u == CellUpdate(sheetRow, cols[body], text) {
        assert header[u.col - 1] == body;
      } else {
        assert date in cols && u == CellUpdate(sheetRow, cols[date], stamp);
        assert header[u.col - 1] == date;
      }
    }
  }

  /** Whether a row's processing ends the run: its template failed, or its
      email was sent and write-back misses a column. */
  predicate Halts(o: Outcome, header: seq<string>) {
    o == TemplateFailed || (o.Delivered? && !HasColumnsFor(header, o.stage))
  }

  /** One row of the loop, given how its processing ended: its updates
      (written with date stamp `stamp`), and whether the run stops here. */
  function RowStep(o: Outcome, sheetRow: int, stamp: string, header: seq<string>): (r: Step)
    ensures r.updates != [] ==> o.Delivered?
    ensures r.halted <==> Halts(o, header)
  {
    match o
    case TemplateFailed => Step([], true)
    case Delivered(stage, text) => WriteBack(sheetRow, stage, text, stamp, header)
    case _ => Step([], false)
  }

  /** Every update of a row stays in that row and inside the header, and a
      flag column is written only for the row's delivered stage, with
      "TRUE". */
  lemma RowStepTouchesOnlyItsFlag(o: Outcome, sheetRow: int, stamp: string, header: seq<string>)
    ensures forall u :: u in RowStep(o, sheetRow, stamp, header).updates ==>
              && u.row == sheetRow && 1 <= u.col <= |header|
              && (IsFlagColumn(header[u.col - 1]) ==>
                    header[u.col - 1] == FlagColumn(o.stage) && u.value == SentMarker)
  {
    if o.Delivered? {
      WriteBackTouchesOnlyItsFlag(sheetRow, o.stage, o.text, stamp, header);
    }
  }

  // ---------------------------------------------------------------------
  // The run
  // ---------------------------------------------------------------------

  /** How the processing of each record ends, in sheet order. Every decision
      depends on its own record and the services alone, so deciding them all
      up front is the same as deciding them as the loop reaches them. */
  function Outcomes(rows: seq<Row>, ctx: Context): (os: seq<Outcome>)
    ensures |os| == |rows|
    ensures forall i {:trigger Decide(rows[i], ctx)} :: 0 <= i < |rows| ==> os[i] == Decide(rows[i], ctx)
  {
    seq(|rows|, i requires 0 <= i < |rows| => Decide(rows[i], ctx))
  }

  /** `u` lies in a record from `k` on whose email was sent, inside the
      header, and writes a flag column only if it is that record's delivered
      stage's, with "TRUE". */
  predicate RecordsSend(os: seq<Outcome>, k: nat, header: seq<string>, u: CellUpdate) {
    && k + 2 <= u.row < |os| + 2
    && os[u.row - 2].Delivered?
    && 1 <= u.col <= |header|
    && (IsFlagColumn(header[u.col - 1]) ==>
          header[u.col - 1] == FlagColumn(os[u.row - 2].stage) && u.value == SentMarker)
  }

  /** The loop from record `k` on; record `k` is sheet row `k + 2`, under
      the header row. A row whose processing raises outside the per-lead
      handlers ends the run: no record after it is written. */
  function RunFrom(os: seq<Outcome>, k: nat, stamp: string, header: seq<string>): (r: Step)
    requires k <= |os|
    decreases |os| - k
    ensures forall u :: u in r.updates ==> RecordsSend(os, k, header, u)
    ensures r.halted <==> exists j :: k <= j < |os| && Halts(os[j], header)
    ensures forall u, j :: u in r.updates && k <= j < |os| && j + 2 < u.row ==> !Halts(os[j], header)
    ensures forall j, u :: && k <= j < |os| && (forall l :: k <= l < j ==> !Halts(os[l], header))
                           && u in RowStep(os[j], j + 2, stamp, header).updates
                           ==> u in r.updates
  {
    if k == |os| then Step([], false)
    else
      var s := RowStep(os[k], k + 2, stamp, header);
      RowStepTouchesOnlyItsFlag(os[k], k + 2, stamp, header);
      if s.halted then
        RowStepRecordsSend(os, k, stamp, header, []);
        assert s.updates + [] == s.updates;
        s
      else
        var rest := RunFrom(os, k + 1, stamp, header);
        RowStepRecordsSend(os, k, stamp, header, rest.updates);
        Step(s.updates + rest.updates, rest.halted)
  }

  /** Row `k`'s own updates, followed by updates recording sends of later
      rows, all record sends from row `k` on. */
  lemma RowStepRecordsSend(os: seq<Outcome>, k: nat, stamp: string, header: seq<string>,
                           later: seq<CellUpdate>)
    requires k < |os|
    requires forall u :: u in later ==> RecordsSend(os, k + 1, header, u)
    ensures forall u :: u in RowStep(os[k], k + 2, stamp, header).updates + later ==>
              RecordsSend(os, k, header, u)
  {
    var mine := RowStep(os[k], k + 2, stamp, header).updates;
    RowStepTouchesOnlyItsFlag(os[k], k + 2, stamp, header);
    forall u | u in mine + later
      ensures RecordsSend(os, k, header, u)
    {
      if u in mine {
        assert u.row - 2 == k;
      } else {
        assert RecordsSend(os, k + 1, header, u);
      }
    }
  }

  /** `run_bot`: one pass over all records, stamping today's date. Every
      update lies in the row of a record whose email was sent, inside the
      header, and writes a flag column only for that record's stage, with
      "TRUE"; the run stops early exactly when some record's template fails
      or its write-back misses a column. */
  function RunBot(rows: seq<Row>, header: seq<string>, ctx: Context): (r: Step)
    ensures var os := Outcomes(rows, ctx);
            forall u :: u in r.updates ==>
              && 2 <= u.row < |rows| + 2 && os[u.row - 2].Delivered?
              && 1 <= u.col <= |header|
              && (IsFlagColumn(header[u.col - 1]) ==>
                    header[u.col - 1] == FlagColumn(os[u.row - 2].stage) && u.value == SentMarker)
    ensures r.halted <==> exists i :: 0 <= i < |rows| && Halts(Outcomes(rows, ctx)[i], header)
    ensures forall u, i :: u in r.updates && 0 <= i < |rows| && i + 2 < u.row ==>
              !Halts(Outcomes(rows, ctx)[i], header)
    ensures var os := Outcomes(rows, ctx);
            forall j, u :: && 0 <= j < |rows| && (forall l :: 0 <= l < j ==> !Halts(os[l], header))
                           && u in RowStep(os[j], j + 2, IsoFormat(ctx.today), header).updates
                           ==> u in r.updates
  {
    RunFrom(Outcomes(rows, ctx), 0, IsoFormat(ctx.today), header)
  }

  /** The exception that ends the run ends the writing: no record after
      one whose template raised or whose write-back missed a column is
      written. */
  lemma RunWritesNothingAfterHalt(rows: seq<Row>, header: seq<string>, ctx: Context, i: int)
    requires 0 <= i < |rows| && Halts(Decide(rows[i], ctx), header)
    ensures RunBot(rows, header, ctx).halted
    ensures forall u :: u in RunBot(rows, header, ctx).updates ==> u.row <= i + 2
  {
    assert Outcomes(rows, ctx)[i] == Decide(rows[i], ctx);
  }

  /** How many of the records from `k` on end in a sent email. */
  function Sends(os: seq<Outcome>, k: nat): nat
    requires k <= |os|
    decreases |os| - k
  {
    if k == |os| then 0
    else (if os[k].Delivered? then 1 else 0) + Sends(os, k + 1)
  }

  /** With a complete header and a template that renders, a row goes on to
      the next and writes three cells if its email was sent, none otherwise. */
  lemma RowStepCount(o: Outcome, sheetRow: int, stamp: string, header: seq<string>)
    requires HasWrittenColumns(header) && o != TemplateFailed
    ensures !RowStep(o, sheetRow, stamp, header).halted
    ensures |RowStep(o, sheetRow, stamp, header).updates| == if o.Delivered? then 3 else 0
  {
    if o.Delivered? {
      assert HasColumnsFor(header, o.stage);
    }
  }

  /** With a complete header and templates that render, the loop reaches
      the end and writes exactly three cells per sent email. */
  lemma {:induction false} RunWritesThreePerSend(os: seq<Outcome>, k: nat, stamp: string, header: seq<string>)
    requires k <= |os|
    requires HasWrittenColumns(header)
    requires forall j :: k <= j < |os| ==> os[j] != TemplateFailed
    ensures !RunFrom(os, k, stamp, header).halted
    ensures |RunFrom(os, k, stamp, header).updates| == 3 * Sends(os, k)
    decreases |os| - k
  {
    if k < |os| {
      RowStepCount(os[k], k + 2, stamp, header);
      RunWritesThreePerSend(os, k + 1, stamp, header);
    }
  }

  /** The whole run over a sheet with a complete header whose templates all
      render: it never stops early and writes three cells per sent email. */
  lemma RunBotWritesThreePerSend(rows: seq<Row>, header: seq<string>, ctx: Context)
    requires HasWrittenColumns(header)
    requires forall i :: 0 <= i < |rows| ==> Decide(rows[i], ctx) != TemplateFailed
    ensures !RunBot(rows, header, ctx).halted
    ensures |RunBot(rows, header, ctx).updates| == 3 * Sends(Outcomes(rows, ctx), 0)
  {
    RunWritesThreePerSend(Outcomes(rows, ctx), 0, IsoFormat(ctx.today), header);
  }

  // ---------------------------------------------------------------------
  // The sheet after the run
  // ---------------------------------------------------------------------

  /** `update_cell` seen through the records: sheet row `u.row` is record
      `u.row - 2` and column `u.col` is header name `header[u.col - 1]`. */
  function ApplyUpdate(rows: seq<Row>, header: seq<string>, u: CellUpdate): (r: seq<Row>)
    ensures |r| == |rows|
  {
    if 2 <= u.row < |rows| + 2 && 1 <= u.col <= |header| then
      rows[u.row - 2 := rows[u.row - 2][header[u.col - 1] := u.value]]
    else rows
  }

  /** The updates applied in the order they were issued. */
  function ApplyAll(rows: seq<Row>, header: seq<string>, us: seq<CellUpdate>): (r: seq<Row>)
    ensures |r| == |rows|
    decreases |us|
  {
    if us == [] then rows else ApplyAll(ApplyUpdate(rows, header, us[0]), header, us[1..])
  }

  /** One update that writes "TRUE" if it writes a flag column at all
      keeps a set flag set. */
  lemma UpdateKeepsFlag(rows: seq<Row>, header: seq<string>, u: CellUpdate, i: int, s: Stage)
    requires 1 <= u.col <= |header| && (IsFlagColumn(header[u.col - 1]) ==> u.value == SentMarker)
    requires 0 <= i < |rows| && IsTruthy(Cell(rows[i], FlagColumn(s)))
    ensures IsTruthy(Cell(ApplyUpdate(rows, header, u)[i], FlagColumn(s)))
  {
    var next := ApplyUpdate(rows, header, u);
    if 2 <= u.row < |rows| + 2 && i == u.row - 2 && header[u.col - 1] == FlagColumn(s) {
      assert Cell(next[i], FlagColumn(s)) == SentMarker;
      SentMarkerIsTruthy();
    } else {
      assert Cell(next[i], FlagColumn(s)) == Cell(rows[i], FlagColumn(s));
    }
  }

  /** One such update keeps every flag that was set. */
  lemma UpdateKeepsFlags(rows: seq<Row>, header: seq<string>, u: CellUpdate)
    requires 1 <= u.col <= |header| && (IsFlagColumn(header[u.col - 1]) ==> u.value == SentMarker)
    ensures forall i, s :: 0 <= i < |rows| && Sent(ReadFlags(rows[i]), s) ==>
              Sent(ReadFlags(ApplyUpdate(rows, header, u)[i]), s)
  {
    var next := ApplyUpdate(rows, header, u);
    forall i, s | 0 <= i < |rows| && Sent(ReadFlags(rows[i]), s)
      ensures Sent(ReadFlags(next[i]), s)
    {
      UpdateKeepsFlag(rows, header, u, i, s);
    }
  }

  /** Updates that write only "TRUE" into flag columns never clear a flag. */
  lemma {:induction false} FlagsNeverCleared(rows: seq<Row>, header: seq<string>, us: seq<CellUpdate>)
    requires forall u :: u in us ==>
               1 <= u.col <= |header| && (IsFlagColumn(header[u.col - 1]) ==> u.value == SentMarker)
    ensures forall i, s :: 0 <= i < |rows| && Sent(ReadFlags(rows[i]), s) ==>
              Sent(ReadFlags(ApplyAll(rows, header, us)[i]), s)
    decreases |us|
  {
    if us != [] {
      var next := ApplyUpdate(rows, header, us[0]);
      UpdateKeepsFlags(rows, header, us[0]);
      FlagsNeverCleared(next, header, us[1..]);
    }
  }

  /** A flag column no update of record `i` addresses keeps its cell. */
  lemma {:induction false} FlagKeptUnlessAddressed(rows: seq<Row>, header: seq<string>, us: seq<CellUpdate>,
                                                   i: int, s: Stage)
    requires 0 <= i < |rows|
    requires forall u :: u in us && u.row == i + 2 ==>
               1 <= u.col <= |header| && header[u.col - 1] != FlagColumn(s)
    ensures Cell(ApplyAll(rows, header, us)[i], FlagColumn(s)) == Cell(rows[i], FlagColumn(s))
    decreases |us|
  {
    if us != [] {
      var next := ApplyUpdate(rows, header, us[0]);
      assert Cell(next[i], FlagColumn(s)) == Cell(rows[i], FlagColumn(s));
      FlagKeptUnlessAddressed(next, header, us[1..], i, s);
    }
  }

  /** Records no update addresses are left exactly as they were. */
  lemma {:induction false} UntouchedRowsUnchanged(rows: seq<Row>, header: seq<string>, us: seq<CellUpdate>, i: int)
    requires 0 <= i < |rows|
    requires forall u :: u in us ==> u.row != i + 2
    ensures ApplyAll(rows, header, us)[i] == rows[i]
    decreases |us|
  {
    if us != [] {
      UntouchedRowsUnchanged(ApplyUpdate(rows, header, us[0]), header, us[1..], i);
    }
  }

  /** After the run no flag of any lead is cleared. */
  lemma RunNeverClearsFlags(rows: seq<Row>, header: seq<string>, ctx: Context)
    ensures forall i, s :: 0 <= i < |rows| && Sent(ReadFlags(rows[i]), s) ==>
              Sent(ReadFlags(ApplyAll(rows, header, RunBot(rows, header, ctx).updates)[i]), s)
  {
    FlagsNeverCleared(rows, header, RunBot(rows, header, ctx).updates);
  }

  /** Updates that record sends address a record's flag columns only at
      the flag of that record's delivered stage. */
  lemma RecordedFlagsOnly(os: seq<Outcome>, header: seq<string>, us: seq<CellUpdate>, i: int, s: Stage)
    requires 0 <= i < |os| && !(os[i].Delivered? && os[i].stage == s)
    requires forall u :: u in us ==> RecordsSend(os, 0, header, u)
    ensures forall u :: u in us && u.row == i + 2 ==>
              1 <= u.col <= |header| && header[u.col - 1] != FlagColumn(s)
  {
    forall u | u in us && u.row == i + 2
      ensures 1 <= u.col <= |header| && header[u.col - 1] != FlagColumn(s)
    {
      assert RecordsSend(os, 0, header, u);
    }
  }

  /** After the run every flag cell holds what it held before, except the
      flag of the stage whose email a record's processing delivered. */
  lemma RunKeepsOtherFlags(rows: seq<Row>, header: seq<string>, ctx: Context, i: int, s: Stage)
    requires 0 <= i < |rows|
    requires !(Decide(rows[i], ctx).Delivered? && Decide(rows[i], ctx).stage == s)
    ensures Cell(ApplyAll(rows, header, RunBot(rows, header, ctx).updates)[i], FlagColumn(s))
            == Cell(rows[i], FlagColumn(s))
  {
    var os := Outcomes(rows, ctx);
    var us := RunBot(rows, header, ctx).updates;
    RecordedFlagsOnly(os, header, us, i, s);
    FlagKeptUnlessAddressed(rows, header, us, i, s);
  }

  /** A lead whose row did not end in a sent email is left exactly as it
      was: skipped leads, failed generations and failed sends write nothing. */
  lemma RunWritesOnlySentRows(rows: seq<Row>, header: seq<string>, ctx: Context)
    ensures forall i :: 0 <= i < |rows| && !Decide(rows[i], ctx).Delivered? ==>
              ApplyAll(rows, header, RunBot(rows, header, ctx).updates)[i] == rows[i]
  {
    forall i | 0 <= i < |rows| && !Decide(rows[i], ctx).Delivered?
      ensures ApplyAll(rows, header, RunBot(rows, header, ctx).updates)[i] == rows[i]
    {
      UntouchedRowsUnchanged(rows, header, RunBot(rows, header, ctx).updates, i);
    }
  }

  /** Three updates applied in order. */
  lemma ApplyThree(rows: seq<Row>, header: seq<string>, a: CellUpdate, b: CellUpdate, c: CellUpdate)
    ensures ApplyAll(rows, header, [a, b, c])
            == ApplyUpdate(ApplyUpdate(ApplyUpdate(rows, header, a), header, b), header, c)
  {
    var r1 := ApplyUpdate(rows, header, a);
    var r2 := ApplyUpdate(r1, header, b);
    var r3 := ApplyUpdate(r2, header, c);
    assert [a, b, c][1..] == [b, c] && [b, c][1..] == [c] && [c][1..] == [];
    assert ApplyAll(rows, header, [a, b, c]) == ApplyAll(r1, header, [b, c]);
    assert ApplyAll(r1, header, [b, c]) == ApplyAll(r2, header, [c]);
    assert ApplyAll(r2, header, [c]) == ApplyAll(r3, header, []);
  }

  /** An update of record `k` sets one cell of it. */
  lemma ApplyAt(rows: seq<Row>, header: seq<string>, k: int, u: CellUpdate)
    requires 0 <= k < |rows| && u.row == k + 2 && 1 <= u.col <= |header|
    ensures ApplyUpdate(rows, header, u) == rows[k := rows[k][header[u.col - 1] := u.value]]
  {
  }

  /** Three updates of record `k` set three of its cells in order. */
  lemma ApplyThreeAt(rows: seq<Row>, header: seq<string>, k: int, a: CellUpdate, b: CellUpdate, c: CellUpdate)
    requires 0 <= k < |rows|
    requires a.row == k + 2 && 1 <= a.col <= |header|
    requires b.row == k + 2 && 1 <= b.col <= |header|
    requires c.row == k + 2 && 1 <= c.col <= |header|
    ensures ApplyAll(rows, header, [a, b, c])
            == rows[k := rows[k][header[a.col - 1] := a.value][header[b.col - 1] := b.value][header[c.col - 1] := c.value]]
  {
    ApplyThree(rows, header, a, b, c);
    var r1 := rows[k := rows[k][header[a.col - 1] := a.value]];
    var r2 := r1[k := r1[k][header[b.col - 1] := b.value]];
    ApplyAt(rows, header, k, a);
    ApplyAt(r1, header, k, b);
    ApplyAt(r2, header, k, c);
  }

  /** A record with a send recorded in it: the stage's flag set to "TRUE",
      the email text as the last body and the stamp as the last update. */
  function Stamped(row: Row, stage: Stage, text: string, stamp: string): Row {
    row[FlagColumn(stage) := SentMarker]["LastEmailBody" := text]["LastUpdated" := stamp]
  }

  /** A record as the run should leave it given how its processing ended:
      stamped if its email was sent, untouched otherwise. */
  function RecordSend(row: Row, o: Outcome, stamp: string): Row {
    if o.Delivered? then Stamped(row, o.stage, o.text, stamp) else row
  }

  /** Three updates of sheet row `sheetRow` that write the stage's flag
      column with "TRUE", then the body column with `text`, then the date
      column with `stamp`. */
  predicate StampingUpdates(us: seq<CellUpdate>, sheetRow: int, stage: Stage, text: string, stamp: string,
                            header: seq<string>) {
    && |us| == 3 && us[0].row == sheetRow && us[1].row == sheetRow && us[2].row == sheetRow
    && 1 <= us[0].col <= |header| && 1 <= us[1].col <= |header| && 1 <= us[2].col <= |header|
    && header[us[0].col - 1] == FlagColumn(stage) && us[0].value == SentMarker
    && header[us[1].col - 1] == "LastEmailBody" && us[1].value == text
    && header[us[2].col - 1] == "LastUpdated" && us[2].value == stamp
  }

  /** A complete write-back is such a triple. */
  lemma CompleteWriteBack(sheetRow: int, stage: Stage, text: string, stamp: string, header: seq<string>)
    requires HasColumnsFor(header, stage)
    ensures StampingUpdates(WriteBack(sheetRow, stage, text, stamp, header).updates, sheetRow, stage, text, stamp, header)
  {
    ColumnMapFinds(header);
  }

  /** Such a triple in record `k` stamps that record and leaves every other
      record as it was. */
  lemma StampingEffect(rows: seq<Row>, k: int, us: seq<CellUpdate>, stage: Stage, text: string, stamp: string,
                       header: seq<string>)
    requires 0 <= k < |rows| && StampingUpdates(us, k + 2, stage, text, stamp, header)
    ensures ApplyAll(rows, header, us) == rows[k := Stamped(rows[k], stage, text, stamp)]
  {
    assert us == [us[0], us[1], us[2]];
    ApplyThreeAt(rows, header, k, us[0], us[1], us[2]);
  }

  /** A complete write-back in record `k` stamps that record and leaves
      every other record as it was. */
  lemma WriteBackEffect(rows: seq<Row>, k: int, stage: Stage, text: string, stamp: string, header: seq<string>)
    requires 0 <= k < |rows| && HasColumnsFor(header, stage)
    ensures ApplyAll(rows, header, WriteBack(k + 2, stage, text, stamp, header).updates)
            == rows[k := Stamped(rows[k], stage, text, stamp)]
  {
    CompleteWriteBack(k + 2, stage, text, stamp, header);
    StampingEffect(rows, k, WriteBack(k + 2, stage, text, stamp, header).updates, stage, text, stamp, header);
  }

  /** Applying two batches of updates one after the other is applying
      them joined. */
  lemma {:induction false} ApplyAllConcat(rows: seq<Row>, header: seq<string>, a: seq<CellUpdate>, b: seq<CellUpdate>)
    ensures ApplyAll(rows, header, a + b) == ApplyAll(ApplyAll(rows, header, a), header, b)
    decreases |a|
  {
    if a == [] {
      assert a + b == b;
    } else {
      assert (a + b)[0] == a[0] && (a + b)[1..] == a[1..] + b;
      ApplyAllConcat(ApplyUpdate(rows, header, a[0]), header, a[1..], b);
    }
  }

  /** When the header has the columns a sent email's write-back needs, a
      row's own updates leave its record as `RecordSend` says and change no
      other record. */
  lemma RowStepEffect(rows: seq<Row>, k: int, o: Outcome, stamp: string, header: seq<string>)
    requires 0 <= k < |rows| && o != TemplateFailed
    requires o.Delivered? ==> HasColumnsFor(header, o.stage)
    ensures ApplyAll(rows, header, RowStep(o, k + 2, stamp, header).updates)
            == rows[k := RecordSend(rows[k], o, stamp)]
  {
    if o.Delivered? {
      WriteBackEffect(rows, k, o.stage, o.text, stamp, header);
    } else {
      assert rows[k := rows[k]] == rows;
    }
  }

  /** The header has every column the write-back of each record from `k`
      on whose email was sent needs. */
  predicate ColumnsForSends(os: seq<Outcome>, k: nat, header: seq<string>) {
    forall j :: k <= j < |os| && os[j].Delivered? ==> HasColumnsFor(header, os[j].stage)
  }

  /** The loop started at record `k` reaches record `i`: no template fails
      in between. */
  predicate Reaches(os: seq<Outcome>, k: nat, i: nat)
    requires i <= |os|
  {
    forall j :: k <= j < i ==> os[j] != TemplateFailed
  }

  /** `after` is `rows` as the loop from record `k` should leave them: the
      earlier records alone, every record it reaches as `RecordSend` says,
      and every record after a failing template untouched. */
  predicate EffectFrom(rows: seq<Row>, after: seq<Row>, os: seq<Outcome>, k: nat, stamp: string)
    requires |os| == |rows| == |after| && k <= |os|
  {
    && (forall i :: 0 <= i < k ==> after[i] == rows[i])
    && (forall i :: k <= i < |rows| ==>
          after[i] == if Reaches(os, k, i) then RecordSend(rows[i], os[i], stamp) else rows[i])
  }

  /** Record `k` recorded first, then the loop's effect from `k + 1` on, is
      the loop's effect from `k` on. */
  lemma EffectStep(rows: seq<Row>, after: seq<Row>, os: seq<Outcome>, k: nat, stamp: string)
    requires |os| == |rows| == |after| && k < |os| && os[k] != TemplateFailed
    requires EffectFrom(rows[k := RecordSend(rows[k], os[k], stamp)], after, os, k + 1, stamp)
    ensures EffectFrom(rows, after, os, k, stamp)
  {
    forall i | k < i < |rows|
      ensures Reaches(os, k, i) == Reaches(os, k + 1, i)
    {
    }
  }

  /** A failing template at record `k` leaves every record as it was. */
  lemma EffectStop(rows: seq<Row>, os: seq<Outcome>, k: nat, stamp: string)
    requires |os| == |rows| && k < |os| && os[k] == TemplateFailed
    ensures EffectFrom(rows, rows, os, k, stamp)
  {
    forall i | k < i < |rows|
      ensures !Reaches(os, k, i)
    {
      assert os[k] == TemplateFailed;
    }
  }

  /** When the header has the columns its write-back needs, a row the loop
      passes records its own send and hands the rest of the sheet to the
      loop from the next record. */
  lemma RunFromStep(rows: seq<Row>, os: seq<Outcome>, k: nat, stamp: string, header: seq<string>)
    requires |os| == |rows| && k < |os| && os[k] != TemplateFailed
    requires os[k].Delivered? ==> HasColumnsFor(header, os[k].stage)
    ensures ApplyAll(rows, header, RunFrom(os, k, stamp, header).updates)
            == ApplyAll(rows[k := RecordSend(rows[k], os[k], stamp)], header, RunFrom(os, k + 1, stamp, header).updates)
  {
    var s := RowStep(os[k], k + 2, stamp, header);
    assert !s.halted;
    var rest := RunFrom(os, k + 1, stamp, header);
    assert RunFrom(os, k, stamp, header).updates == s.updates + rest.updates;
    ApplyAllConcat(rows, header, s.updates, rest.updates);
    RowStepEffect(rows, k, os[k], stamp, header);
  }

  /** When the header has the columns every sent email's write-back needs,
      the loop from record `k` on leaves the sheet as `EffectFrom` says. */
  lemma {:induction false} RunFromEffect(rows: seq<Row>, os: seq<Outcome>, k: nat, stamp: string, header: seq<string>)
    requires |os| == |rows| && k <= |os| && ColumnsForSends(os, k, header)
    ensures EffectFrom(rows, ApplyAll(rows, header, RunFrom(os, k, stamp, header).updates), os, k, stamp)
    decreases |os| - k
  {
    if k == |os| {
      assert RunFrom(os, k, stamp, header).updates == [];
    } else if os[k] == TemplateFailed {
      assert RunFrom(os, k, stamp, header).updates == [];
      EffectStop(rows, os, k, stamp);
    } else {
      var mid := rows[k := RecordSend(rows[k], os[k], stamp)];
      RunFromStep(rows, os, k, stamp, header);
      RunFromEffect(mid, os, k + 1, stamp, header);
      EffectStep(rows, ApplyAll(rows, header, RunFrom(os, k, stamp, header).updates), os, k, stamp);
    }
  }

  /** When the header has the columns every sent email's write-back needs
      (a sheet without a Day7_sent column qualifies as long as no day-7
      email goes out), the run leaves every record it reaches whose
      email was sent with its own stage flag "TRUE", its own email text and
      today's date; every other record, and every record after the first
      failing template, is left untouched. */
  lemma RunRecordsEachSend(rows: seq<Row>, header: seq<string>, ctx: Context)
    requires ColumnsForSends(Outcomes(rows, ctx), 0, header)
    ensures var os := Outcomes(rows, ctx);
            forall i :: 0 <= i < |rows| ==>
              ApplyAll(rows, header, RunBot(rows, header, ctx).updates)[i]
              == if Reaches(os, 0, i) then RecordSend(rows[i], os[i], IsoFormat(ctx.today)) else rows[i]
  {
    RunFromEffect(rows, Outcomes(rows, ctx), 0, IsoFormat(ctx.today), header);
  }

  /** Record `i` after the run, in terms of each record's decision: stamped
      as its own outcome says when no earlier template failed, untouched
      when one did. */
  lemma RecordAfterRun(rows: seq<Row>, header: seq<string>, ctx: Context, i: int)
    requires 0 <= i < |rows|
    requires forall j :: 0 <= j < |rows| && Decide(rows[j], ctx).Delivered? ==>
               HasColumnsFor(header, Decide(rows[j], ctx).stage)
    ensures (forall j :: 0 <= j < i ==> Decide(rows[j], ctx) != TemplateFailed) ==>
              ApplyAll(rows, header, RunBot(rows, header, ctx).updates)[i]
              == RecordSend(rows[i], Decide(rows[i], ctx), IsoFormat(ctx.today))
    ensures (exists j :: 0 <= j < i && Decide(rows[j], ctx) == TemplateFailed) ==>
              ApplyAll(rows, header, RunBot(rows, header, ctx).updates)[i] == rows[i]
  {
    var os := Outcomes(rows, ctx);
    forall j | 0 <= j < |rows|
      ensures os[j] == Decide(rows[j], ctx)
    {
    }
    RunRecordsEachSend(rows, header, ctx);
    assert os[i] == Decide(rows[i], ctx);
    forall j | 0 <= j < i
      ensures os[j] == Decide(rows[j], ctx)
    {
    }
  }

  /** A record as its own row's updates leave it. */
  function Recorded(row: Row, o: Outcome, stamp: string, header: seq<string>): Row {
    ApplyAll([row], header, RowStep(o, 2, stamp, header).updates)[0]
  }

  /** The record a pass over it leaves behind. */
  function AfterSend(row: Row, ctx: Context, header: seq<string>): Row {
    Recorded(row, Decide(row, ctx), IsoFormat(ctx.today), header)
  }

  /** Whatever stage was chosen, the day-0 flag is set once the chosen
      stage's flag is: either it is the chosen flag, or day 0 was passed
      over because it was already sent. */
  lemma Day0SetAfterRecording(row: Row, stage: Stage, text: string, stamp: string, days: int)
    requires SelectStage(ReadFlags(row), days) == Some(stage)
    ensures ReadFlags(Stamped(row, stage, text, stamp)).sent0
  {
    var after := Stamped(row, stage, text, stamp);
    SentMarkerIsTruthy();
    if stage == Day0 {
      assert Cell(after, FlagColumn(Day0)) == SentMarker;
    } else {
      assert Rank(Day0) < Rank(stage);
      assert ReadFlags(row).sent0;
      assert Cell(after, FlagColumn(Day0)) == Cell(row, FlagColumn(Day0));
    }
  }

  /** The date parser reads every strict YYYY-MM-DD text as the date it
      denotes (it may read other texts too). */
  ghost predicate ReadsIsoDates(parse: string -> Option<CalendarDate>) {
    forall s :: ParseIso(s).Some? ==> parse(s) == ParseIso(s)
  }

  /** A record dated today whose day-0 flag is set is not due. */
  lemma NothingDueSameDay(row: Row, ctx: Context)
    requires Cell(row, "LastUpdated") == IsoFormat(ctx.today)
    requires ReadsIsoDates(ctx.parseDate)
    requires ReadFlags(row).sent0
    ensures DueStage(row, ctx).None?
  {
    IsoRoundTrip(ctx.today);
    assert ReadLastUpdated(Cell(row, "LastUpdated"), ctx.parseDate) == Some(ctx.today);
  }

  /** A delivered outcome leaves its record with the stage's flag set to
      "TRUE", the text as the last email body and the stamp as last updated. */
  lemma RecordedCells(row: Row, o: Outcome, stamp: string, header: seq<string>)
    requires o.Delivered? && HasColumnsFor(header, o.stage)
    ensures Recorded(row, o, stamp, header) == Stamped(row, o.stage, o.text, stamp)
  {
    assert RowStep(o, 2, stamp, header) == WriteBack(2, o.stage, o.text, stamp, header);
    WriteBackEffect([row], 0, o.stage, o.text, stamp, header);
  }

  /** Recording a send leaves the email address alone. */
  lemma RecordingKeepsEmail(row: Row, stage: Stage, text: string, stamp: string)
    ensures BuildLead(Stamped(row, stage, text, stamp)).email == BuildLead(row).email
  {
    var after := Stamped(row, stage, text, stamp);
    assert Cell(after, "Email") == Cell(row, "Email");
  }

  /** Once an email is recorded, processing the updated record again on the
      same day sends nothing, provided the date parser reads ISO dates as
      the dates they denote. */
  lemma NoResendSameDay(row: Row, ctx: Context, header: seq<string>)
    ensures && Decide(row, ctx).Delivered?
            && HasColumnsFor(header, Decide(row, ctx).stage)
            && ReadsIsoDates(ctx.parseDate)
            ==> Decide(AfterSend(row, ctx, header), ctx) == NotDue
  {
    var o := Decide(row, ctx);
    if o.Delivered? && HasColumnsFor(header, o.stage) && ReadsIsoDates(ctx.parseDate) {
      var stamp := IsoFormat(ctx.today);
      RecordedCells(row, o, stamp, header);
      var after := Stamped(row, o.stage, o.text, stamp);
      RecordingKeepsEmail(row, o.stage, o.text, stamp);
      var last := ReadLastUpdated(Cell(row, "LastUpdated"), ctx.parseDate);
      Day0SetAfterRecording(row, o.stage, o.text, stamp, ElapsedDays(ctx.today, last));
      assert Cell(after, "LastUpdated") == stamp;
      NothingDueSameDay(after, ctx);
    }
  }
}

=== FILE: scheduler.dfy ===
/**
 * Which follow-up email, if any, a lead is due: the four stage-sent flags
 * as they are read from their cells, and the first-eligible-wins choice
 * over the day-0, day-1, day-3 and day-7 stages.
 */
module Scheduler {
  import opened Wrappers
  import opened Text
  import opened Dates
  import Config

  /** The follow-up stages, in the order they are considered. */
  datatype Stage = Day0 | Day1 | Day3 | Day7

  /** Whether each stage's email has already gone out. */
  datatype Flags = Flags(sent0: bool, sent1: bool, sent3: bool, sent7: bool)

  const Stages: seq<Stage> := [Day0, Day1, Day3, Day7]

  /** Position of a stage in the evaluation order. */
  function Rank(s: Stage): nat {
    match s
    case Day0 => 0
    case Day1 => 1
    case Day3 => 2
    case Day7 => 3
  }

  /** Elapsed whole days from which a stage is due. */
  function Threshold(s: Stage): int {
    match s
    case Day0 => 0
    case Day1 => 1
    case Day3 => 3
    case Day7 => 7
  }

  /** The stage's key in the template table and in the configured schedule. */
  function Key(s: Stage): string {
    match s
    case Day0 => "day0"
    case Day1 => "day1"
    case Day3 => "day3"
    case Day7 => "day7"
  }

  /** The spreadsheet column holding the stage's sent flag. */
  function FlagColumn(s: Stage): string {
    match s
    case Day0 => "Day0_sent"
    case Day1 => "Day1_sent"
    case Day3 => "Day3_sent"
    case Day7 => "Day7_sent"
  }

  /** The names of the four flag columns. */
  predicate IsFlagColumn(name: string) {
    name == FlagColumn(Day0) || name == FlagColumn(Day1)
    || name == FlagColumn(Day3) || name == FlagColumn(Day7)
  }

  function Sent(f: Flags, s: Stage): bool {
    match s
    case Day0 => f.sent0
    case Day1 => f.sent1
    case Day3 => f.sent3
    case Day7 => f.sent7
  }

  /** A stage may be sent: not sent yet and its threshold reached. */
  predicate Eligible(f: Flags, days: int, s: Stage) {
    !Sent(f, s) && Threshold(s) <= days
  }

  // ---------------------------------------------------------------------
  // Flag cells
  // ---------------------------------------------------------------------

  /** The cell value write-back stores for a sent stage. */
  const SentMarker: string := "TRUE"

  /** `a` equals the lower-case word `w` up to the case of ASCII letters. */
  predicate SameIgnoringCase(a: string, w: string) {
    |a| == |w| && forall i :: 0 <= i < |a| ==> LowerChar(a[i]) == w[i]
  }

  /** A flag cell reads as sent when, lower-cased and without any trimming,
      it is "true", "1" or "yes". */
  function IsTruthy(cell: string): (r: bool)
    ensures r <==> SameIgnoringCase(cell, "true") || SameIgnoringCase(cell, "1")
                   || SameIgnoringCase(cell, "yes")
  {
    var l := Lower(cell);
    assert SameIgnoringCase(cell, "true") ==> l == "true";
    assert SameIgnoringCase(cell, "1") ==> l == "1";
    assert SameIgnoringCase(cell, "yes") ==> l == "yes";
    l == "true" || l == "1" || l == "yes"
  }

  /** A truthy cell has no white space anywhere: " true" and "yes\n" read
      as unset. */
  lemma TruthyHasNoSpace(cell: string)
    requires IsTruthy(cell)
    ensures forall i :: 0 <= i < |cell| ==> !IsSpace(cell[i])
  {
    var l := Lower(cell);
    forall i | 0 <= i < |cell|
      ensures !IsSpace(cell[i])
    {
      assert l[i] == LowerChar(cell[i]);
    }
  }

  /** The value write-back stores reads back as sent, and the empty cell of
      a fresh lead reads as unset. */
  lemma SentMarkerIsTruthy()
    ensures IsTruthy(SentMarker)
    ensures !IsTruthy("")
  {
    assert Lower(SentMarker) == "true";
  }

  // ---------------------------------------------------------------------
  // Stage selection
  // ---------------------------------------------------------------------

  /** The due stage: day0, day1, day3, day7 are tried in that order and the
      first one not yet sent whose threshold is reached wins. */
  function SelectStage(f: Flags, days: int): (r: Option<Stage>)
    ensures r.Some? ==> Eligible(f, days, r.value)
    ensures r.Some? ==> forall s :: Rank(s) < Rank(r.value) ==> !Eligible(f, days, s)
    ensures r.None? <==> forall s :: !Eligible(f, days, s)
  {
    if !f.sent0 && days >= 0 then assert Eligible(f, days, Day0); Some(Day0)
    else if !f.sent1 && days >= 1 then assert Eligible(f, days, Day1); Some(Day1)
    else if !f.sent3 && days >= 3 then assert Eligible(f, days, Day3); Some(Day3)
    else if !f.sent7 && days >= 7 then assert Eligible(f, days, Day7); Some(Day7)
    else None
  }

  /** Reference definition: the first eligible stage of a list. */
  function FirstEligible(stages: seq<Stage>, f: Flags, days: int): Option<Stage> {
    if stages == [] then None
    else if Eligible(f, days, stages[0]) then Some(stages[0])
    else FirstEligible(stages[1..], f, days)
  }

  /** The hand-written chain of tests is the first-eligible search over the
      stages in ascending threshold order. */
  lemma SelectStageIsFirstEligible(f: Flags, days: int)
    ensures SelectStage(f, days) == FirstEligible(Stages, f, days)
  {
    var s1, s2, s3 := [Day1, Day3, Day7], [Day3, Day7], [Day7];
    assert Stages[1..] == s1 && s1[1..] == s2 && s2[1..] == s3 && s3[1..] == [];
    assert FirstEligible(s3, f, days) == if Eligible(f, days, Day7) then Some(Day7) else None;
    assert FirstEligible(s2, f, days) == if Eligible(f, days, Day3) then Some(Day3) else FirstEligible(s3, f, days);
    assert FirstEligible(s1, f, days) == if Eligible(f, days, Day1) then Some(Day1) else FirstEligible(s2, f, days);
    assert FirstEligible(Stages, f, days) == if Eligible(f, days, Day0) then Some(Day0) else FirstEligible(s1, f, days);
  }

  /** The evaluation order is ascending in threshold. */
  lemma StagesAscending()
    ensures forall i, j :: 0 <= i < j < |Stages| ==> Threshold(Stages[i]) < Threshold(Stages[j])
    ensures forall i :: 0 <= i < |Stages| ==> Rank(Stages[i]) == i
  {
  }

  /** The hard-coded thresholds are the configured follow-up schedule. */
  lemma ThresholdsMatchSchedule(s: Stage)
    ensures Key(s) in Config.FollowupDays && Config.FollowupDays[Key(s)] == Threshold(s)
  {
  }

  /** A lead with every flag set is never due again. */
  lemma AllSentSelectsNothing(f: Flags, days: int)
    requires f.sent0 && f.sent1 && f.sent3 && f.sent7
    ensures SelectStage(f, days).None?
  {
  }

  /** An earlier eligible stage always beats a later one. */
  lemma EarlierEligibleWins(f: Flags, days: int, s: Stage, t: Stage)
    requires Eligible(f, days, s) && Rank(s) < Rank(t)
    ensures SelectStage(f, days) != Some(t)
  {
  }

  /** Day 0 governs the edges of the schedule: a negative day count selects
      nothing, and an unsent day 0 wins from day count 0 on. */
  lemma Day0Edges(f: Flags, days: int)
    ensures days < 0 ==> SelectStage(f, days).None?
    ensures !f.sent0 && days >= 0 ==> SelectStage(f, days) == Some(Day0)
  {
  }

  // ---------------------------------------------------------------------
  // Elapsed days
  // ---------------------------------------------------------------------

  /** `(today - (last_dt or today)).days`: a missing or unreadable
      LastUpdated counts as today. */
  function ElapsedDays(today: CalendarDate, lastUpdated: Option<CalendarDate>): (r: int)
    ensures lastUpdated.None? ==> r == 0
    ensures lastUpdated.Some? ==> r == Ordinal(today) - Ordinal(lastUpdated.value)
  {
    DaysBetween(lastUpdated.GetOr(today), today)
  }

  /** Without a readable LastUpdated only the day-0 stage can be chosen. */
  lemma MissingDateOnlyDay0(today: CalendarDate, f: Flags)
    ensures SelectStage(f, ElapsedDays(today, None)) in {None, Some(Day0)}
    ensures !f.sent0 ==> SelectStage(f, ElapsedDays(today, None)) == Some(Day0)
  {
  }

  /** A last update dated in the future yields negative days and no stage. */
  lemma FutureDateSelectsNothing(today: CalendarDate, last: CalendarDate, f: Flags)
    requires Ordinal(last) > Ordinal(today)
    ensures SelectStage(f, ElapsedDays(today, Some(last))).None?
  {
  }
}

=== FILE: text.dfy ===
/**
 * The two string operations the follow-up agent relies on: Python's
 * `str.strip()` (which removes every character `str.isspace()` accepts) and
 * lower-casing for the truthy-flag test.
 */
module Text {

  /** Exactly the characters for which Python's `str.isspace()` is true. */
  predicate IsSpace(c: char) {
    || c == ' '
    || ('\t' <= c <= '\r')
    || ('\U{1c}' <= c <= '\U{1f}')
    || c == '\U{85}' || c == '\U{a0}' || c == '\U{1680}'
    || ('\U{2000}' <= c <= '\U{200a}')
    || c == '\U{2028}' || c == '\U{2029}' || c == '\U{202f}'
    || c == '\U{205f}' || c == '\U{3000}'
  }

  /** Python truthiness of `s.strip()`: some character is not white space. */
  predicate HasContent(s: string) {
    exists i :: 0 <= i < |s| && !IsSpace(s[i])
  }

  /** Python's `s.strip()`: white space is dropped from both ends. */
  function Strip(s: string): (r: string)
    ensures |r| <= |s|
    ensures r != [] ==> !IsSpace(r[0]) && !IsSpace(r[|r| - 1])
  {
    if |s| > 0 && IsSpace(s[0]) then Strip(s[1..])
    else if |s| > 0 && IsSpace(s[|s| - 1]) then Strip(s[..|s| - 1])
    else s
  }

  /** Where `Strip(s)` starts inside `s`. */
  function StripOffset(s: string): nat {
    if |s| > 0 && IsSpace(s[0]) then 1 + StripOffset(s[1..])
    else if |s| > 0 && IsSpace(s[|s| - 1]) then StripOffset(s[..|s| - 1])
    else 0
  }

  /** `Strip(s)` is the stretch of `s` that starts at `StripOffset(s)`. */
  lemma {:induction false} StripIsSlice(s: string)
    ensures StripOffset(s) + |Strip(s)| <= |s|
    ensures Strip(s) == s[StripOffset(s)..StripOffset(s) + |Strip(s)|]
  {
    if |s| > 0 && IsSpace(s[0]) {
      var t := s[1..];
      StripIsSlice(t);
      var i, n := StripOffset(t), |Strip(t)|;
      SliceOfTail(s, i, n);
    } else if |s| > 0 && IsSpace(s[|s| - 1]) {
      var t := s[..|s| - 1];
      StripIsSlice(t);
      var i, n := StripOffset(t), |Strip(t)|;
      SliceOfInit(s, i, n);
    }
  }

  /** A stretch of `s` after its first character, located in `s`. */
  lemma SliceOfTail(s: string, i: nat, n: nat)
    requires 0 < |s| && i + n < |s|
    ensures s[1..][i..i + n] == s[i + 1..i + 1 + n]
  {
  }

  /** A stretch of `s` before its last character, located in `s`. */
  lemma SliceOfInit(s: string, i: nat, n: nat)
    requires i + n < |s|
    ensures s[..|s| - 1][i..i + n] == s[i..i + n]
  {
  }

  /** What `Strip` removes is white space at either end, and nothing else. */
  lemma {:induction false} StripRemovesOnlyOuterSpace(s: string)
    ensures StripOffset(s) + |Strip(s)| <= |s|
    ensures forall j :: 0 <= j < StripOffset(s) ==> IsSpace(s[j])
    ensures forall j :: StripOffset(s) + |Strip(s)| <= j < |s| ==> IsSpace(s[j])
  {
    StripIsSlice(s);
    if |s| > 0 && IsSpace(s[0]) {
      var t := s[1..];
      StripRemovesOnlyOuterSpace(t);
      forall j | 0 < j < |s|
        ensures s[j] == t[j - 1]
      {
      }
    } else if |s| > 0 && IsSpace(s[|s| - 1]) {
      var t := s[..|s| - 1];
      StripRemovesOnlyOuterSpace(t);
      forall j | 0 <= j < |t|
        ensures s[j] == t[j]
      {
      }
    }
  }

  /** The strip is empty exactly when the whole string is white space; this
      is what Python's `if full.strip():` tests. */
  lemma {:induction false} StripEmptyIff(s: string)
    ensures Strip(s) == [] <==> !HasContent(s)
  {
    if |s| > 0 && IsSpace(s[0]) {
      StripEmptyIff(s[1..]);
      assert HasContent(s) <==> HasContent(s[1..]) by {
        if HasContent(s) {
          var k :| 0 <= k < |s| && !IsSpace(s[k]);
          assert s[1..][k - 1] == s[k];
        }
        if HasContent(s[1..]) {
          var k :| 0 <= k < |s[1..]| && !IsSpace(s[1..][k]);
          assert s[k + 1] == s[1..][k];
        }
      }
    } else if |s| > 0 && IsSpace(s[|s| - 1]) {
      var t := s[..|s| - 1];
      StripEmptyIff(t);
      assert HasContent(s) <==> HasContent(t) by {
        if HasContent(s) {
          var k :| 0 <= k < |s| && !IsSpace(s[k]);
          assert t[k] == s[k];
        }
        if HasContent(t) {
          var k :| 0 <= k < |t| && !IsSpace(t[k]);
          assert s[k] == t[k];
        }
      }
    } else if |s| > 0 {
      assert !IsSpace(s[0]);
    }
  }

  /** A string without leading or trailing white space is its own strip. */
  lemma StripOfStripped(s: string)
    requires s != [] ==> !IsSpace(s[0]) && !IsSpace(s[|s| - 1])
    ensures Strip(s) == s
  {
  }

  /** Lower-cases the ASCII letters and leaves every other character alone. */
  function LowerChar(c: char): (r: char)
    ensures 'A' <= c <= 'Z' ==> r as int == c as int + 32
    ensures !('A' <= c <= 'Z') ==> r == c
  {
    if 'A' <= c <= 'Z' then (c as int + 32) as char else c
  }

  /** Lower-cases a string character by character. Python's `str.lower()`
      also folds non-ASCII letters; the only ones that land on ASCII are
      U+0130 and U+212A, which become "i\U{307}" and "k". */
  function Lower(s: string): (r: string)
    ensures |r| == |s|
    ensures forall i :: 0 <= i < |s| ==> r[i] == LowerChar(s[i])
  {
    seq(|s|, i requires 0 <= i < |s| => LowerChar(s[i]))
  }
}

=== FILE: wrappers.dfy ===
/** Failure-carrying wrappers shared by the other modules. */
module Wrappers {

  /** A value that may be absent; plays the part of Python's `None`. */
  datatype Option<+T> = None | Some(value: T) {

    /** The wrapped value, or `default` when there is none. */
    function GetOr(default: T): T {
      match this
      case Some(v) => v
      case None => default
    }
  }

  /** A computation that either yields a value or fails with an error. */
  datatype Result<+R, +E> = Success(value: R) | Failure(error: E)
}
